=== FILE: README.md ===
# Library app client: a verified model of its decision logic

The library app is a React Native client for a study library. Students log in with email/password or a phone OTP. They see and mark their attendance, book a seat in a reading room for a time slot, and view their profile. This project models the deterministic logic buried in the app's screens and its session provider, in Dafny. The network, the device storage and the identity provider are replaced by values:

- The device's key/value store (`AsyncStorage`) is a `map<string, string>`.
- Every backend reply is a tagged datatype passed in as a parameter. Its alternatives are the parsed body the handler reads, or a failure of the request or of `res.json()`.
- The identity provider's answers (a signed-in user, a fresh ID token, a sign-in error) are parameters.
- `JSON.stringify`/`JSON.parse` of stored users are function-valued parameters.

Modules:

| module | file | what it models |
|---|---|---|
| `Wrappers` | wrappers.dfy | `Option` and `Result` |
| `Strings` | strings.dfy | JavaScript truthiness of strings, string order `<`, `startsWith`, `trim`, ASCII `toUpperCase` |
| `Seqs` | seqs.dfy | `Array.prototype.filter`, specified as the unique order-preserving sub-list |
| `Storage` | storage.dfy | the store and the keys the app writes |
| `Ui` | ui.dfy | an `Alert.alert(title, body)` |
| `Http` | http.dfy | the two authenticated request builders: each screen's `authedFetch` and `apiFetch` |
| `Session` | session.dfy | the session provider `AuthProvider` as a state machine over `(user, token, loading)` and the store |
| `Attendance` | attendance.dfy | monthly statistics, month navigation, calendar cells, today's record, WiFi and QR marking |
| `Guard` | guard.dfy | the start-up guard shared by the booking and profile screens |
| `Booking` | booking.dfy | seats of a room and their flags, seat selection, end-time choices, booking validation and submission |
| `Profile` | profile.dfy | profile load and fallback, detail rows, avatar and name, logout |
| `Login` | login.dfy | the `/api/login` exchange and what it persists, plus the checks of the three entry points |
| `Register` | register.dfy | the registration request and the message or alert for each answer |
| `RootNav` | rootnav.dfy | the choice of navigator from the stored `userType` |

Main results:

- **Statistics.** `Attendance.ComputeStats` is the statistics loop of the attendance screen. It is proved to return the longest run of present days in the month, and the run that is current at today's day of the month. Both are specified independently of the loop. The current streak is proved to never exceed the longest, which never exceeds the month's length.
- **Session.** With the corrected cold-start hydration, the session provider keeps "user set ⇔ token set" along every sequence of events, from any store. Once loading has ended it never restarts.
- **Session defect.** The cold-start hydration as written breaks that invariant when the stored user does not parse, or is the JSON literal `null`. See Findings. The provider as written still keeps the invariant from any store the app wrote itself, where a stored user always reads back as a user.
- **Seat flags.** A seat is *booked* iff some reservation names it. It is *mine* iff the first such reservation is the student's. Pressing a seat selects it iff it is not held by someone else.
- **Validation.** Booking validation fails in a fixed order: student, then room/seat, then times. A request goes out only when every check passes.
- **Login exchange.** The exchange with `/api/login` writes its three keys together or writes nothing.

## Model

| member | source | states |
|---|---|---|
| `Strings.Trim` | src/screens/auth/LoginScreen.tsx:87 | the result is a slice of the input with only white space dropped at either end, and has no white space at its ends |
| `Strings.TextStart` | src/screens/auth/LoginScreen.tsx:87 | the first position from the given one whose character is not white space; everything skipped is white space |
| `Strings.TextEnd` | src/screens/auth/LoginScreen.tsx:87 | the position just after the last character before the given end that is not white space; everything skipped is white space |
| `Seqs.Filter` | src/screens/student/booking/BookingScreen.tsx:182-184 | the result is a subsequence of the input, holds only elements satisfying the predicate, and holds every such element as often as the input does |
| `Seqs.FilterMembership` | src/screens/student/booking/BookingScreen.tsx:182-184 | an element is kept iff it occurs in the input and satisfies the predicate |
| `Seqs.FilterAppend` | src/screens/student/booking/BookingScreen.tsx:265 | filtering a concatenation is the concatenation of the filtered parts, so relative order is kept |
| `Http.AuthedFetch` | src/screens/student/attendence/AttendenceScreen.tsx:41-50 | URL is base + path; Content-Type is the caller's or JSON; Authorization is Bearer of the stored token when one is stored (overriding the caller), else the caller's; other headers and options pass through |
| `Http.ApiFetch` | src/lib/api.ts:3-18 | fails with "User not logged in" iff there is no current user; otherwise the URL is verbatim, defaults are Bearer token and JSON, and the caller's headers override both |
| `Http.AuthorizationPrecedence` | src/lib/api.ts:12-15 | with a token and a caller Authorization, apiFetch keeps the caller's value while authedFetch keeps the token's |
| `Http.DefaultHeadersAgree` | src/lib/api.ts:12-14 | without caller headers, both builders send exactly Bearer token and JSON content type |
| `Session.HydrateAsWritten` | src/lib/AuthContext.tsx:28-38 | the cold-start load as written never writes storage and agrees with the corrected load except when both keys are set and the user does not read back as a user: if it does not parse only the token is published and loading is left as it was; if it is `null` the token is published next to no user and loading ends |
| `Session.Hydrate` | src/lib/AuthContext.tsx:28-38 | loading ends; storage is not written; the session is taken from storage exactly when both keys hold non-empty strings and the user parses, and is left alone otherwise |
| `Session.OnAuthChanged` | src/lib/AuthContext.tsx:44-61 | a signed-in user stores the fresh token and the user and publishes both; a sign-out removes both keys and clears both; loading ends; other keys untouched |
| `Session.Refresh` | src/lib/AuthContext.tsx:67-80 | only while a user is set: the fresh token replaces the old one in storage and state, user unchanged; no user means no change |
| `Session.Logout` | src/lib/AuthContext.tsx:83-89 | both keys removed, user and token cleared, loading untouched, other keys untouched |
| `Session.LogoutIdempotent` | src/lib/AuthContext.tsx:83-89 | logging out twice is the same as logging out once |
| `Session.StepKeepsUserReadable` | src/lib/AuthContext.tsx:44-89 | with a codec that reads back what it writes, no transition leaves a stored user that does not read back as a user |
| `Session.HydrateAsWrittenOnReadableStore` | src/lib/AuthContext.tsx:28-38 | on a store whose user, if any, reads back as a user, the load as written and the corrected load agree |
| `Session.RunPreservesInvariants` | src/lib/AuthContext.tsx:22-89 | along any sequence of hydrations, callbacks, refreshes and logouts, user and token stay set or cleared together, and loading once false stays false: with the corrected load from any store, with the load as written from a store whose user reads back, which stays so |
| `Session.InitialRunsConsistent` | src/lib/AuthContext.tsx:23-25 | with the corrected load, from the initial state every run keeps user and token consistent |
| `Session.AppWrittenRunsConsistent` | src/lib/AuthContext.tsx:22-89 | with the load as written, from the initial state on a store the app wrote itself, every run keeps user and token consistent |
| `Session.RestartRestoresSession` | src/lib/AuthContext.tsx:44-52 | after a sign-in, a cold start with a faithful JSON codec restores the same user and token |
| `Session.SignOutAfterHydrateClears` | src/lib/AuthContext.tsx:53-60 | a provider sign-out after hydration clears the session and both keys whatever was restored |
| `Session.HydrateAsWrittenBreaksConsistency` | src/lib/AuthContext.tsx:32-37 | a stored token with an unparsable stored user leaves a token without a user and loading still true; with a stored `null` user it leaves a token without a user once loading has ended |
| `Attendance.DaysInMonth` | src/screens/student/attendence/AttendenceScreen.tsx:177 | Gregorian month length: February has 29 days in leap years and 28 otherwise, April/June/September/November have 30, every other month 31 |
| `Attendance.YearLength` | src/screens/student/attendence/AttendenceScreen.tsx:177 | the twelve month lengths add up to 366 days in a leap year and 365 otherwise |
| `Attendance.RoundedPercent` | src/screens/student/attendence/AttendenceScreen.tsx:197 | the integer nearest to 100·count/total with halves rounded up; between 0 and 100 when count ≤ total |
| `Attendance.ExtendLongestRun` | src/screens/student/attendence/AttendenceScreen.tsx:187-190 | adding a day makes the longest run the larger of the previous longest and the run ending at that day |
| `Attendance.ComputeStats` | src/screens/student/attendence/AttendenceScreen.tsx:177-200 | longestStreak is the longest run of present days in 1..daysInMonth; streak is the run ending at min(today's day, daysInMonth); 0 ≤ streak ≤ longestStreak ≤ daysInMonth; percentage is the rounded ratio of the raw list length |
| `Attendance.CurrentAtMostLongest` | src/screens/student/attendence/AttendenceScreen.tsx:183-199 | the current streak never exceeds the longest streak, which never exceeds the month's length |
| `Attendance.TrailingRunDependsOnlyOnPrefix` | src/screens/student/attendence/AttendenceScreen.tsx:192-193 | two attendance lists agreeing on days up to the cut-off give the same current streak |
| `Attendance.LongestRunUnique` | src/screens/student/attendence/AttendenceScreen.tsx:183-190 | the longest-run length is determined by the attendance list |
| `Attendance.LoadMonth` | src/screens/student/attendence/AttendenceScreen.tsx:166-206 | a body that is not ok leaves days and stats unchanged; a failure records its message; an ok body replaces the days and sets the stats as ComputeStats specifies |
| `Attendance.Prev` | src/screens/student/attendence/AttendenceScreen.tsx:316-317 | a valid month steps to the valid month one before it, into December of the previous year from January |
| `Attendance.Next` | src/screens/student/attendence/AttendenceScreen.tsx:328-329 | a valid month steps to the valid month one after it, into January of the next year from December |
| `Attendance.MonthIndexInjective` | src/screens/student/attendence/AttendenceScreen.tsx:316-329 | a valid (year, month) is determined by its month count |
| `Attendance.PrevNextInverse` | src/screens/student/attendence/AttendenceScreen.tsx:314-330 | Next after Prev and Prev after Next are the identity on valid months |
| `Attendance.DayCell` | src/screens/student/attendence/AttendenceScreen.tsx:341-352 | future iff after today; present iff not future and attended; absent iff neither; today's cell outlined |
| `Attendance.CellsUpToTodayShowAttendance` | src/screens/student/attendence/AttendenceScreen.tsx:341-352 | in today's month, a cell up to today is never future and is green iff the day is one the statistics count as present |
| `Attendance.StreakIsTrailingGreenCells` | src/screens/student/attendence/AttendenceScreen.tsx:183-199 | the current streak of the statistics is the block of green cells ending at today's cell, preceded by a red cell unless it reaches the first of the month |
| `Attendance.FetchToday` | src/screens/student/attendence/AttendenceScreen.tsx:76-104 | a 401 reports the expired session, shows "not marked" and resets to login without touching the record; otherwise the record follows the body and the message says marked iff there is one; a failure shows its message |
| `Attendance.FetchTodayIdempotent` | src/screens/student/attendence/AttendenceScreen.tsx:76-104 | applying the same answer twice leaves what applying it once did |
| `Attendance.ApplyMark` | src/screens/student/attendence/AttendenceScreen.tsx:106-127 | success stores the record and names the channel; a rejection or failure keeps the record and shows "NOT marked — " followed by the reason, which for a rejection is the body's message as a template literal prints it ("null" for `null`, "undefined" when missing); the error is set only to a message string |
| `Attendance.MarkMessageTellsOutcome` | src/screens/student/attendence/AttendenceScreen.tsx:106-127 | the mark went through iff the message does not start with the "NOT marked" prefix, iff it is one of the two success messages |
| `Attendance.ChannelOnlyNamesTheMessage` | src/screens/student/attendence/AttendenceScreen.tsx:106-163 | WiFi and QR marking of the same reply differ only in the success message's channel, and not at all on failure |
| `Attendance.HandleScan` | src/screens/student/attendence/AttendenceScreen.tsx:130-163 | a request is made iff the scanned value is non-empty; an empty scan changes nothing; otherwise the scanner closes and the QR reply is applied |
| `Attendance.CheckAuth` | src/screens/student/attendence/AttendenceScreen.tsx:209-229 | the navigator is reset to login iff no token or an empty one is stored; the spinner stays up, so nothing is loaded on focus, exactly in that case |
| `Attendance.AuthCheckWeakerThanGuard` | src/screens/student/attendence/AttendenceScreen.tsx:209-219 | every session the shared guard accepts passes the attendance screen's token check, while a token with no stored user passes it and fails the guard |
| `Guard.ReadStudySession` | src/screens/student/booking/BookingScreen.tsx:96-111 | a missing or empty token or user needs login; otherwise the user is unreadable iff it does not parse and signed in iff it has a non-empty uid, which is returned |
| `Booking.SeatsInRoom` | src/screens/student/booking/BookingScreen.tsx:182-184 | exactly the listed seats of the room, in list order, each as often as listed |
| `Booking.SeatsInRoomSplit` | src/screens/student/booking/BookingScreen.tsx:182-184 | for any split of the seat list, the room's seats are those of the first part followed by those of the second |
| `Booking.FindReservation` | src/screens/student/booking/BookingScreen.tsx:194 | none iff no reservation names the seat; otherwise the first reservation naming it |
| `Booking.AnnotateSeat` | src/screens/student/booking/BookingScreen.tsx:193-199 | booked iff some reservation names the seat; mine iff the first such reservation is the student's; mine implies booked |
| `Booking.Annotate` | src/screens/student/booking/BookingScreen.tsx:193-200 | every seat keeps its position and gains its flags |
| `Booking.BeginLoad` | src/screens/student/booking/BookingScreen.tsx:173-175 | choosing a room clears the seat list and the selection and keeps the times |
| `Booking.LoadSeats` | src/screens/student/booking/BookingScreen.tsx:167-209 | without a student only an alert; otherwise the seats become the room's seats in order with their flags and no new alert is raised, or stay empty with an alert on failure |
| `Booking.PressSeat` | src/screens/student/booking/BookingScreen.tsx:347-363 | a disabled seat (booked by someone else) is not selected; any other is |
| `Booking.PressSelectsIffSelectable` | src/screens/student/booking/BookingScreen.tsx:347-363 | pressing selects a seat iff it is free or the student's own |
| `Booking.SlotsAfter` | src/screens/student/booking/BookingScreen.tsx:265 | the offered end slots are a subsequence of the slots, and a slot is offered iff it is one of the slots and strictly after the start |
| `Booking.EndSlots` | src/screens/student/booking/BookingScreen.tsx:265 | a time is offered as an end iff it is one of the seventeen slots and strictly after the start |
| `Booking.LaterStartOffersFewerEnds` | src/screens/student/booking/BookingScreen.tsx:265 | a later start time offers no end time an earlier start did not |
| `Booking.EmptyStartKeepsAll` | src/screens/student/booking/BookingScreen.tsx:265 | with an empty start, every non-empty slot is offered |
| `Booking.NoStartOffersAllSlots` | src/screens/student/booking/BookingScreen.tsx:68-86 | before a start time is chosen, all seventeen slots are offered |
| `Booking.SetStartTime` | src/screens/student/booking/BookingScreen.tsx:280-283 | afterwards the end time is empty or after the new start; an end after the start is kept; a changed end time is cleared; nothing else changes |
| `Booking.ValidateBooking` | src/screens/student/booking/BookingScreen.tsx:212-224 | fails with not-logged-in iff no student, with missing-info iff a student but no room or seat, with missing-time iff those but no start or end; otherwise the request carries exactly the screen's choices |
| `Booking.BookSeat` | src/screens/student/booking/BookingScreen.tsx:212-255 | nothing is sent on a validation failure, which shows its own alert; seats reload iff the backend reports success; success shows "Success"/"Seat booked successfully!"; a refusal shows "Booking failed" with its message or "Booking failed"; a failed request shows "Error"/"Booking failed. Check console for details." |
| `Booking.BookingGuard` | src/screens/student/booking/BookingScreen.tsx:92-140 | a student id is set iff the session reads and the lookup finds a student with an id; login iff the session needs it or the lookup answered without a student; no alert iff a student was found or the session was missing; the reset after a missing student alerts "Could not load student profile. Please login again."; a parse or lookup failure alerts "Failed to load student info" |
| `Booking.SeatExample` | src/screens/student/booking/BookingScreen.tsx:193-199 | a seat reserved by s1 is mine and selectable for s1 and disabled for s2 |
| `Profile.LookupRequest` | src/screens/student/profile/ProfileScreen.tsx:82 | the lookup goes to the by-uid URL with the stored token as Bearer |
| `Profile.Fallback` | src/screens/student/profile/ProfileScreen.tsx:89-94 | id "unknown", the stored name and email, every other field missing |
| `Profile.LoadProfile` | src/screens/student/profile/ProfileScreen.tsx:61-107 | login iff the guard needs it; "could not load" iff the user does not parse or the lookup fails; a found student is shown, otherwise the fallback; a shown student always has an id |
| `Profile.Logout` | src/screens/student/profile/ProfileScreen.tsx:109-113 | both study keys removed, every other key (including userType) kept |
| `Profile.LogoutLeadsToLogin` | src/screens/student/profile/ProfileScreen.tsx:70-73 | after logout the profile guard sends the user to login whatever the lookup would answer |
| `Profile.LogoutClosesAttendance` | src/screens/student/profile/ProfileScreen.tsx:109-113 | after logout the attendance screen's token check resets to login and keeps its spinner |
| `Profile.AllRows` | src/screens/student/profile/ProfileScreen.tsx:136-145 | eight candidate rows whose titles are the fixed labels in display order |
| `Profile.TitlesDistinct` | src/screens/student/profile/ProfileScreen.tsx:172 | for every student the row titles, used as keys, are pairwise different |
| `Profile.InfoRows` | src/screens/student/profile/ProfileScreen.tsx:169-177 | every rendered row has a non-empty value |
| `Profile.InfoRowsInOrder` | src/screens/student/profile/ProfileScreen.tsx:169-177 | the rendered rows keep the display order |
| `Profile.InfoRowMembership` | src/screens/student/profile/ProfileScreen.tsx:169-177 | a row is rendered iff it is a candidate row with a non-empty value |
| `Profile.RowShownIffPresent` | src/screens/student/profile/ProfileScreen.tsx:136-177 | each field's row is rendered iff the field holds a non-empty string |
| `Profile.FallbackShowsNameAndEmailOnly` | src/screens/student/profile/ProfileScreen.tsx:89-94 | the fallback record renders at most its Name and Email rows |
| `Profile.Avatar` | src/screens/student/profile/ProfileScreen.tsx:156 | one character: the upper-cased first letter of a non-empty name, else "S" |
| `Profile.DisplayName` | src/screens/student/profile/ProfileScreen.tsx:159 | a non-empty heading: the name when there is one, "Student" otherwise |
| `Profile.AvatarMatchesDisplayName` | src/screens/student/profile/ProfileScreen.tsx:156-159 | the avatar letter is the upper-cased first character of the heading |
| `Login.RejectionMessage` | src/screens/auth/LoginScreen.tsx:58 | the thrown message is never empty: the backend's message when it is a non-empty string, "Login failed" otherwise |
| `Login.CallBackendLogin` | src/screens/auth/LoginScreen.tsx:49-73 | a failed request or unparsable body rethrows its error and a reply that is not ok or not successful throws the rejection message, both writing nothing; an accepted reply whose user is missing or `null` throws the TypeError naming which; otherwise the token, the payload built from the user and the body, and the role are stored; no other key changes |
| `Login.ExchangeIsAllOrNothing` | src/screens/auth/LoginScreen.tsx:58-72 | the store is either unchanged or holds the token, the user and the role together |
| `Login.CheckEmailInput` | src/screens/auth/LoginScreen.tsx:78-87 | missing iff either field is empty; otherwise both are trimmed |
| `Login.CheckPhone` | src/screens/auth/LoginScreen.tsx:128-131 | rejected iff the number does not start with "+"; otherwise passed on unchanged |
| `Login.TryLogin` | src/screens/auth/LoginScreen.tsx:83-96 | a provider error is thrown with its message and writes nothing; with a token the store is the exchange's; nothing is thrown iff the exchange succeeds; a transport failure throws its message, a refusal the rejection message, a missing or `null` user the TypeError ending in "of undefined" or "of null" |
| `Login.LoginEmail` | src/screens/auth/LoginScreen.tsx:77-118 | empty fields alert with "Missing info" and change nothing; with both fields the provider is asked with the trimmed email and password, the profile is reached iff it signs in and the exchange succeeds, iff there is no alert; the store is the exchange's; a provider error, a transport failure, a refusal and a malformed user object (the engine's TypeError text for a `null` or missing `user`) each alert under "Login failed" with their message and keep the store |
| `Login.LoginDependsOnTrimmedCredentials` | src/screens/auth/LoginScreen.tsx:78-87 | two filled-in forms whose email and password trim alike give the same login |
| `Login.OtpMessage` | src/screens/auth/LoginScreen.tsx:159 | never empty: a non-empty thrown message is kept, an empty one becomes "Invalid OTP" |
| `Login.VerifyOtp` | src/screens/auth/LoginScreen.tsx:147-163 | without a pending confirmation nothing happens; it never navigates; with one there is no alert iff the provider signs in and the exchange succeeds; the store is the exchange's; a provider error, a transport failure, a refusal and a malformed user object (the engine's TypeError text for a `null` or missing `user`) alert under "Verification error" with their message, an empty one as "Invalid OTP" |
| `Login.EmailAndOtpPersistAlike` | src/screens/auth/LoginScreen.tsx:77-163 | for filled-in fields and a pending confirmation whose provider answer is the one the trimmed credentials get, both entry points leave the same store for the same backend reply, fail on the same inputs, and the email login reaches the profile exactly when the OTP path succeeds |
| `Register.Submit` | src/screens/auth/RegisterScreen.tsx:22-57 | nothing is sent iff a field is empty (with the "Missing info" alert); the body is provider email, the entered credentials, "New User", no phone; an error in the body is shown; success shows the success message and alert; a failed request shows "Something went wrong" |
| `Register.RegisterSendsUntrimmed` | src/screens/auth/RegisterScreen.tsx:23-38 | registration refuses exactly the inputs the email login refuses, and sends the credentials untrimmed where the login trims them |
| `RootNav.Mounted` | src/navigation/RootNavigator.tsx:36-38 | at most one navigator; student iff "student"; admin iff "admin"; auth iff nothing or an empty string is stored; so any other role mounts none |
| `RootNav.CheckUser` | src/navigation/RootNavigator.tsx:17-40 | once the stored role is read the spinner is gone and at most one navigator is mounted: student iff the store holds "student" under `userType`, admin iff it holds "admin", auth iff the key is missing or empty, and none at all for any other stored role |
| `RootNav.LoginRoutesByRole` | src/navigation/RootNavigator.tsx:36-38 | after a successful login exchange, a restart mounts the student or admin navigator per the returned role, and never the auth stack for a non-empty role |
| `RootNav.FreshInstallShowsAuth` | src/navigation/RootNavigator.tsx:38 | with no stored role only the auth stack is mounted |

## Left out

- Network, storage and JSON I/O are not modelled: `fetch`, `res.json()`, `AsyncStorage` and `JSON.parse`/`JSON.stringify` become parameters and replies. Storage writes are modelled as always succeeding. `saveAuthData` swallows storage errors, which are not modelled.
- The identity provider (sign-in, OTP, `getIdToken`, `signOut`, `onAuthStateChanged` registration) is not modelled. Its results are parameters. src/lib/FirebaseConfig.tsx is not part of this model.
- Timing and concurrency are not modelled: the 30-minute interval, the race between hydration and the provider callback, the `active` flag of unmounted effects, and the order in which asynchronous state updates land. Each transition's effect is modelled on its own, and `Session.Run` allows any order of events.
- Spinners and busy flags (`loading`, `monthLoading`, `loadingSeats`, `booking`) are not modelled, except the session's `loading`, the root navigator's `loading` (its spinner before `userType` is read) and the attendance screen's `authChecking`.
- Camera permission, the scanner's `scanning` gate and the `new URL(...)` extraction of a `token` query parameter in `handleScan` belong to a foreign library. Only the empty-scan guard and the reply handling are modelled.
- JavaScript `Date` is not modelled: timezone shifts of `toISOString` are left out. Days are `Date(year, month, day)` triples, and "today" is a day number or a `Date`.
- Attendance.RoundedPercent: exact rational rounding. Floating-point edge cases of `Math.round(x / n * 100)` are not covered.
- Strings.Trim: only ASCII white space is trimmed, not the Unicode space characters `String.prototype.trim` also removes.
- Strings.UpperChar: only ASCII letters are upper-cased.
- Booking.SlotsAfter: string order is by UTF-16 code unit in JavaScript and by `char` here. These agree for the ASCII slot labels.
- Login.CallBackendLogin: a missing `role` in the login body, which would store `undefined`, is not modelled (the role is a string). A missing or `null` `user` is modelled as a distinct error whose alert text is the TypeError message in the wording of Hermes, React Native's JavaScript engine; other engines word it differently (V8: "Cannot read properties of undefined (reading 'uid')").
- Login.CallBackendLogin: the optional fields of the stored payload (`email`, `name`, `studentId`, `adminToken`) merge `null` with missing. `JSON.stringify` writes the first and omits the second; every reader in this model treats both as absent.
- Rendering, styles and navigation-library calls are not modelled. src/navigation/RootNavigation.ts, src/navigation/StudentTabs.tsx and src/navigation/AdminNavigator.tsx are static tables or dispatch wrappers and are not part of this model. The same holds for src/services/api.ts, src/services/auth.ts, global.d.ts and App.tsx.
- Some screen actions are not modelled: the room list fetch (`fetchRooms`), the room picker's ignoring of its empty placeholder, the Google login placeholder alert, and the outcome of `signInWithPhoneNumber` in `sendOTP` (the "OTP Sent" alert, or "Error sending OTP" with the provider's message or "Try again"); only its "+" check is modelled.
- Session.Hydrate: `JSON.parse` of a stored user is abstracted to a user, `null`, or a throw. A stored JSON number or string, which parses to something truthy that is not a user object, is whatever the codec parameter makes of it.
- Session.Hydrate: the stored user is the identity provider's user object. After a cold start it is a plain parsed object without the provider's methods, so the refresh timer's `getIdToken` would fail on it. The model treats the refresh token as a parameter and does not represent that failure.
- Session.Refresh: replaces the token for any set user, including a hydrated plain object; in the app `user.getIdToken(true)` would throw on such an object and nothing would change (see the Session.Hydrate line above).

## Findings

| source | as written | input that shows it | evidently intended | confidence | as-written member | corrected member |
|---|---|---|---|---|---|---|
| src/lib/AuthContext.tsx:32-37 | `loadStoredUser` calls `setToken(token)` before `JSON.parse(userJson)`; when the parse throws, the async function rejects, so `setUser` and `setLoading(false)` never run; a stored `null` parses and publishes a token next to no user | storage holds `token = "T"` and `user = "{"` (not valid JSON), or `user = "null"` | the stored pair is published only when both halves read back, and loading ends in every case, keeping token and user set or cleared together; the app never writes such a store itself (`Session.AppWrittenRunsConsistent`), so the defect needs a store written some other way | not executed | `Session.HydrateAsWritten` (shown by `Session.HydrateAsWrittenBreaksConsistency`) | `Session.Hydrate` |

=== FILE: attendance.dfy ===
/** The attendance screen: monthly statistics, month navigation, the colour
    of each calendar cell, and the handlers for today's record, WiFi marking
    and QR marking. Dates are abstract `Date` triples; the backend's replies
    arrive as parameters. */
module Attendance {
  import opened Wrappers
  import opened Strings
  import Storage
  import Guard

  datatype Date = Date(year: int, month: int, day: int)

  predicate LeapYear(y: int) {
    (y % 4 == 0 && y % 100 != 0) || y % 400 == 0
  }

  /** `new Date(y, m, 0).getDate()` for a month `m` in 1..12. */
  function DaysInMonth(y: int, m: int): (n: int)
    requires 1 <= m <= 12
    ensures 28 <= n <= 31
    ensures m == 2 ==> (n == 29 <==> LeapYear(y)) && (n == 28 <==> !LeapYear(y))
    ensures m in {4, 6, 9, 11} ==> n == 30
    ensures m !in {2, 4, 6, 9, 11} ==> n == 31
  {
    if m == 2 then (if LeapYear(y) then 29 else 28)
    else if m == 4 || m == 6 || m == 9 || m == 11 then 30
    else 31
  }

  /** The days of months `1..m` of year `y`. */
  function DaysBefore(y: int, m: int): (n: int)
    requires 0 <= m <= 12
    decreases m
  {
    if m == 0 then 0 else DaysBefore(y, m - 1) + DaysInMonth(y, m)
  }

  /** The twelve months add up to the calendar year: 366 days in a leap
      year, 365 otherwise. */
  lemma {:induction false} YearLength(y: int)
    ensures DaysBefore(y, 12) == if LeapYear(y) then 366 else 365
  {
    var feb := DaysInMonth(y, 2);
    assert DaysBefore(y, 2) == 31 + feb;
    assert DaysBefore(y, 4) == DaysBefore(y, 2) + 31 + 30;
    assert DaysBefore(y, 6) == DaysBefore(y, 4) + 31 + 30;
    assert DaysBefore(y, 8) == DaysBefore(y, 6) + 31 + 31;
    assert DaysBefore(y, 10) == DaysBefore(y, 8) + 30 + 31;
    assert DaysBefore(y, 12) == DaysBefore(y, 10) + 30 + 31;
  }

  function Min(a: int, b: int): int {
    if a <= b then a else b
  }

  function Max(a: int, b: int): int {
    if a >= b then a else b
  }

  // ---------------------------------------------------------------------------
  // Statistics of one month
  // ---------------------------------------------------------------------------

  datatype Stats = Stats(percentage: int, streak: int, longestStreak: int)

  /** `data.days.includes(dt)` for the date of day `d` of the shown month. */
  predicate IsPresent(days: seq<Date>, y: int, m: int, d: int) {
    Date(y, m, d) in days
  }

  /** Every day from `a` to `b` is present. */
  ghost predicate RunOf(days: seq<Date>, y: int, m: int, a: int, b: int) {
    forall d :: a <= d <= b ==> IsPresent(days, y, m, d)
  }

  /** `len` is the length of the run of present days that ends at day `c`
      and starts no earlier than day 1. */
  ghost predicate IsTrailingRun(days: seq<Date>, y: int, m: int, c: int, len: int) {
    && 0 <= len
    && (len == 0 || len <= c)
    && RunOf(days, y, m, c - len + 1, c)
    && (c - len >= 1 ==> !IsPresent(days, y, m, c - len))
  }

  /** `len` is the length of the longest run of present days within 1..n. */
  ghost predicate IsLongestRun(days: seq<Date>, y: int, m: int, n: int, len: int) {
    && 0 <= len
    && (forall a, b :: 1 <= a <= b <= n && RunOf(days, y, m, a, b) ==> b - a + 1 <= len)
    && (len == 0 || exists a, b :: 1 <= a <= b <= n && b - a + 1 == len && RunOf(days, y, m, a, b))
  }

  /** `Math.round(count / total * 100)` computed exactly: the integer nearest
      to 100 * count / total, halves rounded up. */
  function RoundedPercent(count: nat, total: int): (r: int)
    requires total > 0
    ensures 2 * total * r <= 200 * count + total < 2 * total * (r + 1)
    ensures 0 <= r
    ensures count <= total ==> r <= 100
  {
    var x := 200 * count + total;
    PercentBounds(count, total, x / (2 * total));
    x / (2 * total)
  }

  lemma PercentBounds(count: nat, total: int, q: int)
    requires total > 0 && q == (200 * count + total) / (2 * total)
    ensures 2 * total * q <= 200 * count + total < 2 * total * (q + 1)
    ensures 0 <= q
    ensures count <= total ==> q <= 100
  {
    var x := 200 * count + total;
    var d := 2 * total;
    assert x == d * q + x % d && 0 <= x % d < d;
    assert q >= 101 ==> d * q >= d * 101;
  }

  /** No run ending at `c` is longer than the trailing run at `c`. */
  lemma TrailingRunIsMaximal(days: seq<Date>, y: int, m: int, c: int, len: int, a: int)
    requires IsTrailingRun(days, y, m, c, len)
    requires 1 <= a <= c && RunOf(days, y, m, a, c)
    ensures c - a + 1 <= len
  {
    assert a <= c - len ==> IsPresent(days, y, m, c - len);
  }

  lemma ExtendTrailingRun(days: seq<Date>, y: int, m: int, c: int, len: int)
    requires c >= 0 && IsTrailingRun(days, y, m, c, len)
    ensures IsPresent(days, y, m, c + 1) ==> IsTrailingRun(days, y, m, c + 1, len + 1)
    ensures !IsPresent(days, y, m, c + 1) ==> IsTrailingRun(days, y, m, c + 1, 0)
  {
  }

  /** Adding day `c` to the range: the longest run becomes the larger of the
      old longest run and the run that ends at `c`. */
  lemma ExtendLongestRun(days: seq<Date>, y: int, m: int, c: int, longest: int, trailing: int)
    requires c >= 1
    requires IsLongestRun(days, y, m, c - 1, longest)
    requires IsTrailingRun(days, y, m, c, trailing)
    ensures IsLongestRun(days, y, m, c, Max(longest, trailing))
  {
    var l := Max(longest, trailing);
    forall a, b | 1 <= a <= b <= c && RunOf(days, y, m, a, b)
      ensures b - a + 1 <= l
    {
      if b == c {
        TrailingRunIsMaximal(days, y, m, c, trailing, a);
      } else {
        assert RunOf(days, y, m, a, b);
      }
    }
    if l != 0 {
      if trailing >= longest {
        assert 1 <= c - trailing + 1 <= c && RunOf(days, y, m, c - trailing + 1, c);
      } else {
        var a, b :| 1 <= a <= b <= c - 1 && b - a + 1 == longest && RunOf(days, y, m, a, b);
        assert 1 <= a <= b <= c;
      }
    }
  }

  /** The current streak never exceeds the longest streak, and the longest
      streak never exceeds the number of days. */
  lemma CurrentAtMostLongest(days: seq<Date>, y: int, m: int, n: int, c: int, current: int, longest: int)
    requires c <= n
    requires IsTrailingRun(days, y, m, c, current)
    requires IsLongestRun(days, y, m, n, longest)
    ensures current <= longest
    ensures n >= 0 ==> longest <= n
  {
    if current > 0 {
      assert 1 <= c - current + 1 <= c <= n && RunOf(days, y, m, c - current + 1, c);
    }
    if longest > 0 {
      var a, b :| 1 <= a <= b <= n && b - a + 1 == longest && RunOf(days, y, m, a, b);
    }
  }

  /** The statistics block of `loadMonth`: one pass over the days of the
      month keeping the running streak, the longest streak and the streak
      that is current as of today's day of the month (`todayDay`, which is
      taken from today's date whatever month is shown). */
  method ComputeStats(days: seq<Date>, y: int, m: int, todayDay: int) returns (s: Stats)
    requires 1 <= m <= 12
    ensures IsLongestRun(days, y, m, DaysInMonth(y, m), s.longestStreak)
    ensures IsTrailingRun(days, y, m, Min(todayDay, DaysInMonth(y, m)), s.streak)
    ensures 0 <= s.streak <= s.longestStreak <= DaysInMonth(y, m)
    ensures s.percentage == RoundedPercent(|days|, DaysInMonth(y, m))
  {
    var n := DaysInMonth(y, m);
    var streak := 0;
    var longest := 0;
    var current := 0;
    var d := 1;
    while d <= n
      invariant 1 <= d <= n + 1
      invariant IsTrailingRun(days, y, m, d - 1, streak)
      invariant IsLongestRun(days, y, m, d - 1, longest)
      invariant IsTrailingRun(days, y, m, Min(d - 1, todayDay), current)
    {
      var present := Date(y, m, d) in days;
      ExtendTrailingRun(days, y, m, d - 1, streak);
      if present {
        streak := streak + 1;
      } else {
        streak := 0;
      }
      ExtendLongestRun(days, y, m, d, longest, streak);
      longest := Max(longest, streak);
      if d <= todayDay {
        ExtendTrailingRun(days, y, m, d - 1, current);
      }
      if present && d <= todayDay {
        current := current + 1;
      } else if d <= todayDay {
        current := 0;
      }
      d := d + 1;
    }
    CurrentAtMostLongest(days, y, m, n, Min(todayDay, n), current, longest);
    s := Stats(RoundedPercent(|days|, n), current, longest);
  }

  /** Two attendance lists that agree on days 1..c have the same trailing run
      at `c`: days after the cut-off never change the current streak. */
  lemma TrailingRunDependsOnlyOnPrefix(days1: seq<Date>, days2: seq<Date>, y: int, m: int, c: int, len1: int, len2: int)
    requires forall d :: 1 <= d <= c ==> (IsPresent(days1, y, m, d) <==> IsPresent(days2, y, m, d))
    requires IsTrailingRun(days1, y, m, c, len1)
    requires IsTrailingRun(days2, y, m, c, len2)
    ensures len1 == len2
  {
    assert len1 < len2 ==> IsPresent(days2, y, m, c - len1);
    assert len2 < len1 ==> IsPresent(days1, y, m, c - len2);
  }

  /** The longest run is determined by the attendance list. */
  lemma LongestRunUnique(days: seq<Date>, y: int, m: int, n: int, len1: int, len2: int)
    requires IsLongestRun(days, y, m, n, len1)
    requires IsLongestRun(days, y, m, n, len2)
    ensures len1 == len2
  {
    if len1 > 0 {
      var a, b :| 1 <= a <= b <= n && b - a + 1 == len1 && RunOf(days, y, m, a, b);
    }
    if len2 > 0 {
      var a, b :| 1 <= a <= b <= n && b - a + 1 == len2 && RunOf(days, y, m, a, b);
    }
  }

  /** What `/api/attendence/month` answers: a body with its `ok` flag and
      the list of attended dates, or a failure (network or JSON). */
  datatype MonthReply = MonthBody(ok: bool, days: seq<Date>) | MonthFailed(message: string)

  datatype MonthView = MonthView(monthDays: seq<Date>, stats: Stats, error: Option<string>)

  /** `loadMonth(y, m)`: the error is cleared first; a body that is not `ok`
      leaves the days and statistics as they were, a failure records its
      message, and an `ok` body replaces the days and recomputes the stats. */
  method LoadMonth(v: MonthView, y: int, m: int, todayDay: int, reply: MonthReply) returns (r: MonthView)
    requires 1 <= m <= 12
    ensures !(reply.MonthBody? && reply.ok) ==> r.monthDays == v.monthDays && r.stats == v.stats
    ensures reply.MonthFailed? ==> r.error == Some(reply.message)
    ensures reply.MonthBody? ==> r.error.None?
    ensures reply.MonthBody? && reply.ok ==>
      && r.monthDays == reply.days
      && IsLongestRun(reply.days, y, m, DaysInMonth(y, m), r.stats.longestStreak)
      && IsTrailingRun(reply.days, y, m, Min(todayDay, DaysInMonth(y, m)), r.stats.streak)
      && r.stats.percentage == RoundedPercent(|reply.days|, DaysInMonth(y, m))
  {
    match reply
    case MonthFailed(msg) =>
      r := v.(error := Some(msg));
    case MonthBody(ok, days) =>
      if !ok {
        r := v.(error := None);
        return;
      }
      var stats := ComputeStats(days, y, m, todayDay);
      r := MonthView(days, stats, None);
  }

  // ---------------------------------------------------------------------------
  // Month navigation and calendar cells
  // ---------------------------------------------------------------------------

  datatype YearMonth = YearMonth(year: int, month: int)

  predicate ValidMonth(ym: YearMonth) {
    1 <= ym.month <= 12
  }

  /** Months counted from January of year 0. */
  function MonthIndex(ym: YearMonth): int {
    ym.year * 12 + ym.month - 1
  }

  /** The "Previous" button: steps back one month, into December of the
      previous year from January. */
  function Prev(ym: YearMonth): (r: YearMonth)
    ensures ValidMonth(ym) ==> ValidMonth(r) && MonthIndex(r) == MonthIndex(ym) - 1
  {
    if ym.month == 1 then YearMonth(ym.year - 1, 12) else YearMonth(ym.year, ym.month - 1)
  }

  /** The "Next" button: steps forward one month, into January of the next
      year from December. */
  function Next(ym: YearMonth): (r: YearMonth)
    ensures ValidMonth(ym) ==> ValidMonth(r) && MonthIndex(r) == MonthIndex(ym) + 1
  {
    if ym.month == 12 then YearMonth(ym.year + 1, 1) else YearMonth(ym.year, ym.month + 1)
  }

  /** A valid month is determined by its index. */
  lemma MonthIndexInjective(a: YearMonth, b: YearMonth)
    requires ValidMonth(a) && ValidMonth(b) && MonthIndex(a) == MonthIndex(b)
    ensures a == b
  {
    assert a.year < b.year ==> MonthIndex(a) <= a.year * 12 + 11 < b.year * 12 <= MonthIndex(b);
    assert b.year < a.year ==> MonthIndex(b) <= b.year * 12 + 11 < a.year * 12 <= MonthIndex(a);
  }

  /** Previous and Next undo each other on every valid month. */
  lemma PrevNextInverse(ym: YearMonth)
    requires ValidMonth(ym)
    ensures Next(Prev(ym)) == ym && Prev(Next(ym)) == ym
  {
    MonthIndexInjective(Next(Prev(ym)), ym);
    MonthIndexInjective(Prev(Next(ym)), ym);
  }

  /** Calendar order of dates; for real dates this is the order of their
      midnight timestamps. */
  predicate Before(a: Date, b: Date) {
    a.year < b.year || (a.year == b.year && (a.month < b.month || (a.month == b.month && a.day < b.day)))
  }

  datatype CellColour = FutureColour | PresentColour | AbsentColour
  datatype Cell = Cell(colour: CellColour, outlined: bool)

  /** The cell of day `day` of the shown month: absent by default, present
      when the day was attended, and future whenever it lies after today,
      which wins over present; today's cell is outlined. */
  function DayCell(monthDays: seq<Date>, y: int, m: int, day: int, today: Date): (r: Cell)
    ensures r.colour == FutureColour <==> Before(today, Date(y, m, day))
    ensures r.colour == PresentColour <==> !Before(today, Date(y, m, day)) && Date(y, m, day) in monthDays
    ensures r.colour == AbsentColour <==> !Before(today, Date(y, m, day)) && Date(y, m, day) !in monthDays
    ensures r.outlined <==> Date(y, m, day) == today
  {
    var date := Date(y, m, day);
    var colour :=
      if Before(today, date) then FutureColour
      else if date in monthDays then PresentColour
      else AbsentColour;
    Cell(colour, date == today)
  }

  /** In today's month, a cell up to today is green exactly when the day was
      attended: the same test the statistics loop counts. */
  lemma CellsUpToTodayShowAttendance(days: seq<Date>, today: Date, d: int)
    requires 1 <= d <= today.day
    ensures DayCell(days, today.year, today.month, d, today).colour == PresentColour
        <==> IsPresent(days, today.year, today.month, d)
    ensures DayCell(days, today.year, today.month, d, today).colour != FutureColour
  {
  }

  /** The current streak reported by the statistics is the block of green
      cells that ends at today's cell, with a red cell (or the first of the
      month) before it. */
  lemma {:induction false} StreakIsTrailingGreenCells(days: seq<Date>, today: Date, streak: int)
    requires 1 <= today.month <= 12 && 1 <= today.day <= DaysInMonth(today.year, today.month)
    requires IsTrailingRun(days, today.year, today.month, Min(today.day, DaysInMonth(today.year, today.month)), streak)
    ensures 0 <= streak <= today.day
    ensures forall d :: (today.day - streak < d <= today.day
                         ==> DayCell(days, today.year, today.month, d, today).colour == PresentColour)
    ensures today.day - streak >= 1
            ==> DayCell(days, today.year, today.month, today.day - streak, today).colour == AbsentColour
  {
    var c := Min(today.day, DaysInMonth(today.year, today.month));
    assert c == today.day;
    forall d | today.day - streak < d <= today.day
      ensures DayCell(days, today.year, today.month, d, today).colour == PresentColour
    {
      assert IsPresent(days, today.year, today.month, d);
      CellsUpToTodayShowAttendance(days, today, d);
    }
    if today.day - streak >= 1 {
      CellsUpToTodayShowAttendance(days, today, today.day - streak);
    }
  }

  // ---------------------------------------------------------------------------
  // Today's record, WiFi marking and QR marking
  // ---------------------------------------------------------------------------

  datatype Attendance = Attendance(timestamp: string, via: string)

  datatype TodayView = TodayView(
    attendance: Option<Attendance>,
    message: string,
    error: Option<string>,
    scannerOpen: bool,
    scanning: bool,
    atLogin: bool)

  const MarkedToday := "✔ Today’s attendance is marked"
  const NotMarkedToday := "❌ Today’s attendance NOT marked"
  const SessionExpired := "Session expired. Please login again."
  const NotMarkedPrefix := "❌ Attendance NOT marked — "
  const MarkedByWifi := "✔ Attendance marked successfully (WiFi)"
  const MarkedByQr := "✔ Attendance marked successfully (QR)"

  /** What `/api/attendence/today` answers: an HTTP status with the body's
      attendance record, or a failure (network or JSON). */
  datatype TodayReply = TodayBody(status: int, attendance: Option<Attendance>) | TodayFailed(message: string)

  /** `fetchToday`: a 401 reports an expired session and sends the user to
      login without touching the record; otherwise the record and message
      follow the reply, and a failure shows its message. */
  function FetchToday(v: TodayView, reply: TodayReply): (r: TodayView)
    ensures r.scannerOpen == v.scannerOpen && r.scanning == v.scanning
    ensures reply.TodayBody? && reply.status == 401 ==>
      r.error == Some(SessionExpired) && r.message == NotMarkedToday && r.atLogin && r.attendance == v.attendance
    ensures reply.TodayBody? && reply.status != 401 ==>
      r.error.None? && r.atLogin == v.atLogin && r.attendance == reply.attendance
      && (r.message == MarkedToday <==> reply.attendance.Some?)
    ensures reply.TodayFailed? ==>
      r.error == Some(reply.message) && r.message == NotMarkedToday && r.attendance == v.attendance && r.atLogin == v.atLogin
    ensures r.message == MarkedToday || r.message == NotMarkedToday
  {
    match reply
    case TodayFailed(msg) => v.(error := Some(msg), message := NotMarkedToday)
    case TodayBody(status, att) =>
      if status == 401 then
        v.(error := Some(SessionExpired), message := NotMarkedToday, atLogin := true)
      else if att.Some? then
        v.(error := None, attendance := att, message := MarkedToday)
      else
        v.(error := None, attendance := None, message := NotMarkedToday)
  }

  /** A marking reply: a body with `ok`, `message` and `attendance`, or a
      failure (network or JSON). */
  datatype MarkReply = MarkBody(ok: bool, message: Field<string>, attendance: Option<Attendance>) | MarkFailed(reason: string)

  datatype Channel = Wifi | Qr

  /** Template-literal rendering of a possibly missing string. */
  function Interpolate(f: Field<string>): (r: string)
    ensures f.Missing? ==> r == "undefined"
    ensures f.Null? ==> r == "null"
    ensures f.Given? ==> r == f.value
  {
    match f
    case Missing => "undefined"
    case Null => "null"
    case Given(s) => s
  }

  /** `setError(data.message)`: a string is kept; `null` and `undefined` both
      leave no error to show. */
  function FieldError(f: Field<string>): (r: Option<string>)
    ensures r.Some? <==> f.Given?
    ensures f.Given? ==> r == Some(f.value)
  {
    if f.Given? then Some(f.value) else None
  }

  /** The shared body of `tryWifiMark` and `handleScan` once a request was
      sent: success stores the record and names the channel; a rejection or
      a failure keeps the record and reports the reason. */
  function ApplyMark(v: TodayView, channel: Channel, reply: MarkReply): (r: TodayView)
    ensures r.scannerOpen == v.scannerOpen && r.scanning == v.scanning && r.atLogin == v.atLogin
    ensures reply.MarkBody? && reply.ok ==>
      r.attendance == reply.attendance && r.error.None?
      && r.message == (if channel == Wifi then MarkedByWifi else MarkedByQr)
    ensures reply.MarkBody? && !reply.ok ==>
      r.attendance == v.attendance && r.error == FieldError(reply.message)
      && r.message == NotMarkedPrefix + Interpolate(reply.message)
      && (reply.message.Null? ==> r.message == NotMarkedPrefix + "null")
      && (reply.message.Missing? ==> r.message == NotMarkedPrefix + "undefined")
    ensures reply.MarkFailed? ==>
      r.attendance == v.attendance && r.error == Some(reply.reason)
      && r.message == NotMarkedPrefix + reply.reason
  {
    match reply
    case MarkFailed(msg) => v.(error := Some(msg), message := NotMarkedPrefix + msg)
    case MarkBody(ok, msg, att) =>
      if !ok then v.(error := FieldError(msg), message := NotMarkedPrefix + Interpolate(msg))
      else v.(error := None, attendance := att, message := if channel == Wifi then MarkedByWifi else MarkedByQr)
  }

  /** Fetching the same answer twice shows what fetching it once did. */
  lemma FetchTodayIdempotent(v: TodayView, reply: TodayReply)
    ensures FetchToday(FetchToday(v, reply), reply) == FetchToday(v, reply)
  {
  }

  /** The message alone tells whether the mark went through: a successful
      mark names its channel, and every other outcome starts with the
      "NOT marked" prefix. */
  lemma MarkMessageTellsOutcome(v: TodayView, channel: Channel, reply: MarkReply)
    ensures var r := ApplyMark(v, channel, reply);
            (reply.MarkBody? && reply.ok) <==> !StartsWith(r.message, NotMarkedPrefix)
    ensures var r := ApplyMark(v, channel, reply);
            (reply.MarkBody? && reply.ok) <==> r.message == MarkedByWifi || r.message == MarkedByQr
  {
    var r := ApplyMark(v, channel, reply);
    if reply.MarkBody? && reply.ok {
      assert r.message[0] != NotMarkedPrefix[0];
    } else {
      assert r.message[..|NotMarkedPrefix|] == NotMarkedPrefix;
      assert r.message[0] != MarkedByWifi[0] && r.message[0] != MarkedByQr[0];
    }
  }

  /** WiFi and QR marking differ only in the channel the message names. */
  lemma ChannelOnlyNamesTheMessage(v: TodayView, reply: MarkReply)
    ensures ApplyMark(v, Wifi, reply).(message := "") == ApplyMark(v, Qr, reply).(message := "")
    ensures !(reply.MarkBody? && reply.ok) ==> ApplyMark(v, Wifi, reply) == ApplyMark(v, Qr, reply)
  {
  }

  datatype ScanOutcome = ScanOutcome(view: TodayView, requested: bool)

  /** `handleScan(value)`: an empty or missing scan is ignored and sends
      nothing; otherwise the scanner closes and the QR mark is applied. The
      last clause only names the step; what the marking does is carried by
      `ApplyMark`'s own contract. */
  function HandleScan(v: TodayView, scanned: Option<string>, reply: MarkReply): (r: ScanOutcome)
    ensures r.requested <==> Present(scanned)
    ensures !r.requested ==> r.view == v
    ensures r.requested ==> !r.view.scannerOpen && !r.view.scanning
    ensures r.requested ==> r.view == ApplyMark(v.(scannerOpen := false, scanning := false, error := None), Qr, reply)
  {
    if !Present(scanned) then ScanOutcome(v, false)
    else ScanOutcome(ApplyMark(v.(scannerOpen := false, scanning := false, error := None), Qr, reply), true)
  }

  // ---------------------------------------------------------------------------
  // Start-up check
  // ---------------------------------------------------------------------------

  /** The screen's gate after `checkAuth`: whether the spinner is still up
      (`authChecking`, which also keeps the focus effect from loading
      anything) and whether the navigator was reset to login. */
  datatype AuthGate = AuthGate(authChecking: bool, toLogin: bool)

  /** `checkAuth`: with no token, or an empty one, the navigator is reset to
      login and the spinner stays; with a non-empty token the spinner goes
      and the focus effect may load. Unlike the booking and profile guards it
      does not look at the stored user. */
  function CheckAuth(st: Storage.Store): (r: AuthGate)
    ensures r.toLogin <==> Storage.StudyTokenKey !in st || st[Storage.StudyTokenKey] == ""
    ensures r.authChecking <==> r.toLogin
  {
    if Present(Storage.Get(st, Storage.StudyTokenKey)) then AuthGate(false, false) else AuthGate(true, true)
  }

  /** The check is weaker than the shared guard: every session the guard
      accepts passes it, but a token alone, without a stored user, passes it
      while the guard sends the user to login. */
  lemma AuthCheckWeakerThanGuard(st: Storage.Store, parse: string -> Guard.Parsed)
    ensures Guard.ReadStudySession(st, parse).SignedIn? ==> !CheckAuth(st).authChecking
    ensures var tokenOnly := map[Storage.StudyTokenKey := "T"];
            !CheckAuth(tokenOnly).authChecking && Guard.ReadStudySession(tokenOnly, parse) == Guard.NeedLogin
  {
    var tokenOnly := map[Storage.StudyTokenKey := "T"];
    assert Storage.Get(tokenOnly, Storage.StudyUserKey).None?;
  }
}

=== FILE: booking.dfy ===
/** The seat-booking screen: loading and annotating the seats of a room,
    which seats can be picked, the end-time choices, the start-time reset,
    the checks before a booking is sent and the start-up guard. */
module Booking {
  import opened Wrappers
  import opened Strings
  import opened Seqs
  import opened Guard
  import opened Ui

  datatype Seat = Seat(id: string, seatLabel: string, roomId: string)

  /** One entry of `/api/booking/list`. */
  datatype Reservation = Reservation(seatId: string, studentId: string)

  /** A seat with the flags `loadSeats` adds. */
  datatype SeatView = SeatView(seat: Seat, isBooked: bool, isMine: bool)

  const TimeSlots: seq<string> := [
    "06:00", "07:00", "08:00", "09:00", "10:00", "11:00", "12:00", "13:00", "14:00",
    "15:00", "16:00", "17:00", "18:00", "19:00", "20:00", "21:00", "22:00"]

  // ---------------------------------------------------------------------------
  // Seats of a room and their annotations
  // ---------------------------------------------------------------------------

  /** The listed seats that belong to room `roomId`, in list order. */
  function SeatsInRoom(seats: seq<Seat>, roomId: string): (r: seq<Seat>)
    ensures IsSubsequence(r, seats)
    ensures forall i :: 0 <= i < |r| ==> r[i].roomId == roomId
    ensures forall s :: multiset(r)[s] == if s.roomId == roomId then multiset(seats)[s] else 0
  {
    Filter(seats, (s: Seat) => s.roomId == roomId)
  }

  /** The room's seats keep the order of the list across any split of it:
      every seat of the room listed in the first part comes before every one
      listed in the second. */
  lemma SeatsInRoomSplit(a: seq<Seat>, b: seq<Seat>, roomId: string)
    ensures SeatsInRoom(a + b, roomId) == SeatsInRoom(a, roomId) + SeatsInRoom(b, roomId)
  {
    FilterAppend(a, b, (s: Seat) => s.roomId == roomId);
  }

  /** Some reservation names seat `seatId`. */
  ghost predicate IsReserved(bookings: seq<Reservation>, seatId: string) {
    exists j :: 0 <= j < |bookings| && bookings[j].seatId == seatId
  }

  /** The first reservation naming seat `seatId` belongs to `studentId`. */
  ghost predicate FirstReservationBy(bookings: seq<Reservation>, seatId: string, studentId: string) {
    exists j :: 0 <= j < |bookings| && bookings[j].seatId == seatId && bookings[j].studentId == studentId
      && forall k :: 0 <= k < j ==> bookings[k].seatId != seatId
  }

  /** `bookings.find(b => b.seatId === seatId)`. */
  function FindReservation(bookings: seq<Reservation>, seatId: string): (r: Option<Reservation>)
    ensures r.None? <==> !IsReserved(bookings, seatId)
    ensures r.Some? ==> exists j :: (0 <= j < |bookings| && bookings[j] == r.value && r.value.seatId == seatId
      && forall k :: 0 <= k < j ==> bookings[k].seatId != seatId)
  {
    if |bookings| == 0 then None
    else if bookings[0].seatId == seatId then Some(bookings[0])
    else
      var r := FindReservation(bookings[1..], seatId);
      assert IsReserved(bookings, seatId) ==> IsReserved(bookings[1..], seatId) by {
        if IsReserved(bookings, seatId) {
          var j :| 0 <= j < |bookings| && bookings[j].seatId == seatId;
          assert bookings[1..][j - 1].seatId == seatId;
        }
      }
      assert r.Some? ==> exists j :: (0 <= j < |bookings| && bookings[j] == r.value && r.value.seatId == seatId
        && forall k :: 0 <= k < j ==> bookings[k].seatId != seatId) by {
        if r.Some? {
          var j :| 0 <= j < |bookings| - 1 && bookings[1..][j] == r.value && r.value.seatId == seatId
            && forall k :: 0 <= k < j ==> bookings[1..][k].seatId != seatId;
          assert bookings[j + 1] == r.value;
          assert forall k :: 0 <= k < j + 1 ==> bookings[k].seatId != seatId by {
            forall k | 0 <= k < j + 1 ensures bookings[k].seatId != seatId {
              if k > 0 { assert bookings[k] == bookings[1..][k - 1]; }
            }
          }
        }
      }
      r
  }

  /** The flags of one seat: booked when some reservation names it, mine when
      the first such reservation is the current student's. */
  function AnnotateSeat(s: Seat, bookings: seq<Reservation>, studentId: string): (r: SeatView)
    ensures r.seat == s
    ensures r.isBooked <==> IsReserved(bookings, s.id)
    ensures r.isMine <==> FirstReservationBy(bookings, s.id, studentId)
    ensures r.isMine ==> r.isBooked
  {
    var b := FindReservation(bookings, s.id);
    var mine := b.Some? && b.value.studentId == studentId;
    assert mine <==> FirstReservationBy(bookings, s.id, studentId) by {
      if FirstReservationBy(bookings, s.id, studentId) {
        var j :| 0 <= j < |bookings| && bookings[j].seatId == s.id && bookings[j].studentId == studentId
          && forall k :: 0 <= k < j ==> bookings[k].seatId != s.id;
        var i :| 0 <= i < |bookings| && bookings[i] == b.value && b.value.seatId == s.id
          && forall k :: 0 <= k < i ==> bookings[k].seatId != s.id;
        assert !(i < j) && !(j < i);
      }
    }
    SeatView(s, b.Some?, mine)
  }

  /** `roomSeats.map(...)`: every seat keeps its place and gains its flags. */
  function Annotate(roomSeats: seq<Seat>, bookings: seq<Reservation>, studentId: string): (r: seq<SeatView>)
    ensures |r| == |roomSeats|
    ensures forall i :: 0 <= i < |r| ==> r[i] == AnnotateSeat(roomSeats[i], bookings, studentId)
  {
    seq(|roomSeats|, i requires 0 <= i < |roomSeats| => AnnotateSeat(roomSeats[i], bookings, studentId))
  }

  /** A seat is disabled when someone else holds it. */
  predicate Disabled(v: SeatView) {
    v.isBooked && !v.isMine
  }

  // ---------------------------------------------------------------------------
  // The screen's state and its transitions
  // ---------------------------------------------------------------------------

  datatype Screen = Screen(
    studentId: Option<string>,
    roomId: string,
    seats: seq<SeatView>,
    selectedSeat: string,
    startTime: string,
    endTime: string,
    alert: Option<Alert>)

  /** The answers of `/api/admin/seats/list` and `/api/booking/list?roomId=`
      (a missing list read as empty), or a failure of either. */
  datatype SeatsReply = SeatsLoaded(seats: seq<Seat>, bookings: seq<Reservation>) | SeatsFailed

  /** The synchronous start of `loadSeats(id)`: the room is chosen and the
      seats and selection are cleared before anything is fetched. */
  function BeginLoad(s: Screen, id: string): (r: Screen)
    ensures r.roomId == id && r.seats == [] && r.selectedSeat == ""
    ensures r.studentId == s.studentId && r.startTime == s.startTime && r.endTime == s.endTime && r.alert == s.alert
  {
    s.(roomId := id, seats := [], selectedSeat := "")
  }

  /** `loadSeats(id)`: without a student nothing but an alert happens;
      otherwise the room's seats, annotated against its reservations, replace
      the seat list, which stays empty when loading fails. */
  function LoadSeats(s: Screen, id: string, reply: SeatsReply): (r: Screen)
    ensures !Present(s.studentId) ==>
      r == s.(alert := Some(Alert("Not logged in", "Please login first")))
    ensures Present(s.studentId) ==>
      && r.roomId == id && r.selectedSeat == ""
      && r.studentId == s.studentId && r.startTime == s.startTime && r.endTime == s.endTime
    ensures Present(s.studentId) && reply.SeatsFailed? ==>
      r.seats == [] && r.alert == Some(Alert("Error", "Failed to load seats"))
    ensures Present(s.studentId) && reply.SeatsLoaded? ==>
      && r.alert == s.alert
      && |r.seats| == |SeatsInRoom(reply.seats, id)|
      && (forall i :: 0 <= i < |r.seats| ==>
            && r.seats[i].seat == SeatsInRoom(reply.seats, id)[i]
            && r.seats[i].seat.roomId == id
            && (r.seats[i].isBooked <==> IsReserved(reply.bookings, r.seats[i].seat.id))
            && (r.seats[i].isMine <==> FirstReservationBy(reply.bookings, r.seats[i].seat.id, s.studentId.value)))
  {
    if !Present(s.studentId) then
      s.(alert := Some(Alert("Not logged in", "Please login first")))
    else
      var started := BeginLoad(s, id);
      match reply
      case SeatsFailed => started.(alert := Some(Alert("Error", "Failed to load seats")))
      case SeatsLoaded(seats, bookings) =>
        started.(seats := Annotate(SeatsInRoom(seats, id), bookings, s.studentId.value))
  }

  /** Pressing a seat selects it unless it is disabled. */
  function PressSeat(s: Screen, v: SeatView): (r: Screen)
    ensures Disabled(v) ==> r == s
    ensures !Disabled(v) ==> r == s.(selectedSeat := v.seat.id)
  {
    if Disabled(v) then s else s.(selectedSeat := v.seat.id)
  }

  /** A seat can be selected exactly when it is free or the student's own. */
  lemma PressSelectsIffSelectable(s: Screen, v: SeatView)
    requires s.selectedSeat != v.seat.id
    ensures PressSeat(s, v).selectedSeat == v.seat.id <==> !v.isBooked || v.isMine
  {
  }

  // ---------------------------------------------------------------------------
  // Time slots
  // ---------------------------------------------------------------------------

  /** The slots after `startTime`, in slot order. */
  function SlotsAfter(slots: seq<string>, startTime: string): (r: seq<string>)
    ensures IsSubsequence(r, slots)
    ensures forall i :: 0 <= i < |r| ==> Less(startTime, r[i])
    ensures forall t :: t in r <==> t in slots && Less(startTime, t)
  {
    var p := (t: string) => Less(startTime, t);
    var r := Filter(slots, p);
    forall t
      ensures t in r <==> t in slots && Less(startTime, t)
    {
      FilterMembership(slots, p, t);
    }
    r
  }

  /** `filteredEndSlots`: the end times offered for a start time are the
      slots strictly after it, in slot order. */
  function EndSlots(startTime: string): (r: seq<string>)
    ensures forall t :: t in r <==> t in TimeSlots && Less(startTime, t)
  {
    SlotsAfter(TimeSlots, startTime)
  }

  /** A later start time offers no end time an earlier one did not. */
  lemma LaterStartOffersFewerEnds(a: string, b: string, t: string)
    requires LessEq(a, b)
    ensures t in EndSlots(b) ==> t in EndSlots(a)
  {
    if t in EndSlots(b) && a != b {
      LessTransitive(a, b, t);
    }
  }

  /** Before a start time is chosen, every non-empty slot is offered. */
  lemma {:induction false} EmptyStartKeepsAll(slots: seq<string>)
    requires forall i :: 0 <= i < |slots| ==> Truthy(slots[i])
    ensures SlotsAfter(slots, "") == slots
  {
    forall i | 0 <= i < |slots|
      ensures Less("", slots[i])
    {
      EmptyIsLeast(slots[i]);
    }
    FilterAll(slots, (t: string) => Less("", t));
  }

  /** With no start time the end picker lists all slots. */
  lemma NoStartOffersAllSlots()
    ensures EndSlots("") == TimeSlots
  {
    forall i | 0 <= i < |TimeSlots|
      ensures Truthy(TimeSlots[i])
    {
      assert |TimeSlots[i]| == 5;
    }
    EmptyStartKeepsAll(TimeSlots);
  }

  /** The start picker: the end time is cleared when it is no longer after
      the new start, and kept otherwise. */
  function SetStartTime(s: Screen, v: string): (r: Screen)
    ensures r.startTime == v
    ensures r.endTime == "" || Less(v, r.endTime)
    ensures Less(v, s.endTime) ==> r.endTime == s.endTime
    ensures r.endTime != s.endTime ==> r.endTime == ""
    ensures r == s.(startTime := v, endTime := r.endTime)
  {
    NotLessEqIsGreater(s.endTime, v);
    if Truthy(s.endTime) && LessEq(s.endTime, v) then s.(startTime := v, endTime := "")
    else s.(startTime := v)
  }

  // ---------------------------------------------------------------------------
  // Booking
  // ---------------------------------------------------------------------------

  datatype BookingRequest = BookingRequest(studentId: string, roomId: string, seatId: string, startTime: string, endTime: string)

  datatype BookingError = NotLoggedIn | MissingInfo | MissingTime

  function ErrorAlert(e: BookingError): Alert {
    match e
    case NotLoggedIn => Alert("Not logged in", "You are not logged in!")
    case MissingInfo => Alert("Missing info", "Select a room and seat!")
    case MissingTime => Alert("Missing time", "Select start and end time!")
  }

  /** The checks at the top of `bookSeat`, in order: student, then room and
      seat, then both times. A request is built only when all pass, and it
      carries exactly the screen's choices. */
  function ValidateBooking(s: Screen): (r: Result<BookingRequest, BookingError>)
    ensures r == Failure(NotLoggedIn) <==> !Present(s.studentId)
    ensures r == Failure(MissingInfo) <==> Present(s.studentId) && (!Truthy(s.roomId) || !Truthy(s.selectedSeat))
    ensures r == Failure(MissingTime) <==>
      Present(s.studentId) && Truthy(s.roomId) && Truthy(s.selectedSeat) && (!Truthy(s.startTime) || !Truthy(s.endTime))
    ensures r.Success? ==>
      r.value == BookingRequest(s.studentId.value, s.roomId, s.selectedSeat, s.startTime, s.endTime)
      && Truthy(r.value.studentId) && Truthy(r.value.roomId) && Truthy(r.value.seatId)
      && Truthy(r.value.startTime) && Truthy(r.value.endTime)
  {
    if !Present(s.studentId) then Failure(NotLoggedIn)
    else if !Truthy(s.roomId) || !Truthy(s.selectedSeat) then Failure(MissingInfo)
    else if !Truthy(s.startTime) || !Truthy(s.endTime) then Failure(MissingTime)
    else Success(BookingRequest(s.studentId.value, s.roomId, s.selectedSeat, s.startTime, s.endTime))
  }

  /** The answer of `POST /api/booking`, or a failure. */
  datatype BookReply = BookBody(success: bool, message: Option<string>) | BookFailed

  /** What `bookSeat` does: the request sent (if any), the alert shown, and
      whether the room's seats are reloaded. */
  datatype BookOutcome = BookOutcome(sent: Option<BookingRequest>, alert: Alert, reload: bool)

  function BookSeat(s: Screen, reply: BookReply): (r: BookOutcome)
    ensures ValidateBooking(s).Failure? ==>
      r.sent.None? && !r.reload && r.alert == ErrorAlert(ValidateBooking(s).error)
    ensures ValidateBooking(s).Success? ==> r.sent == Some(ValidateBooking(s).value)
    ensures r.reload <==> r.sent.Some? && reply.BookBody? && reply.success
    ensures r.sent.Some? && reply.BookBody? && reply.success ==>
      r.alert == Alert("Success", "Seat booked successfully!")
    ensures r.sent.Some? && reply.BookBody? && !reply.success ==>
      r.alert == Alert("Booking failed", if Present(reply.message) then reply.message.value else "Booking failed")
    ensures r.sent.Some? && reply.BookFailed? ==>
      r.alert == Alert("Error", "Booking failed. Check console for details.")
  {
    match ValidateBooking(s)
    case Failure(e) => BookOutcome(None, ErrorAlert(e), false)
    case Success(req) =>
      match reply
      case BookFailed => BookOutcome(Some(req), Alert("Error", "Booking failed. Check console for details."), false)
      case BookBody(ok, msg) =>
        if ok then BookOutcome(Some(req), Alert("Success", "Seat booked successfully!"), true)
        else BookOutcome(Some(req), Alert("Booking failed", if Present(msg) then msg.value else "Booking failed"), false)
  }

  // ---------------------------------------------------------------------------
  // Start-up guard
  // ---------------------------------------------------------------------------

  /** Where the guard leaves the screen: the student id (if any), whether it
      reset to Login, and the alert it raised. */
  datatype GuardResult = GuardResult(studentId: Option<string>, toLogin: bool, alert: Option<Alert>)

  /** The booking screen's guard: a stored, parseable user with a `uid` and a
      student with an id yields that id, silently; a missing session sends the
      user to login silently; a missing student sends the user to login with
      an alert; a parse or lookup failure only alerts. */
  function BookingGuard(st: Storage.Store, parse: string -> Parsed, reply: StudentReply): (r: GuardResult)
    ensures r.studentId.Some? <==> ReadStudySession(st, parse).SignedIn? && Found(reply)
    ensures r.studentId.Some? ==> r.studentId == Some(reply.student.value.id) && !r.toLogin
    ensures r.toLogin <==> (ReadStudySession(st, parse).NeedLogin?
                        || (ReadStudySession(st, parse).SignedIn? && reply.StudentBody? && !Found(reply)))
    ensures r.alert.None? <==> r.studentId.Some? || ReadStudySession(st, parse).NeedLogin?
    ensures r.toLogin && !ReadStudySession(st, parse).NeedLogin? ==>
      r.alert == Some(Alert("Error", "Could not load student profile. Please login again."))
    ensures !r.toLogin && r.studentId.None? ==> r.alert == Some(Alert("Error", "Failed to load student info"))
  {
    match ReadStudySession(st, parse)
    case NeedLogin => GuardResult(None, true, None)
    case Unreadable => GuardResult(None, false, Some(Alert("Error", "Failed to load student info")))
    case SignedIn(uid, user) =>
      if Found(reply) then GuardResult(Some(reply.student.value.id), false, None)
      else if reply.StudentBody? then
        GuardResult(None, true, Some(Alert("Error", "Could not load student profile. Please login again.")))
      else GuardResult(None, false, Some(Alert("Error", "Failed to load student info")))
  }

  /** The example of seat "1" in room "R" reserved by student "s1". */
  lemma SeatExample()
    ensures var seats := [Seat("1", "A1", "R")];
            var bookings := [Reservation("1", "s1")];
            var mine := Annotate(SeatsInRoom(seats, "R"), bookings, "s1");
            var theirs := Annotate(SeatsInRoom(seats, "R"), bookings, "s2");
            |mine| == 1 && mine[0].isBooked && mine[0].isMine && !Disabled(mine[0])
            && |theirs| == 1 && theirs[0].isBooked && !theirs[0].isMine && Disabled(theirs[0])
  {
    var seats := [Seat("1", "A1", "R")];
    assert seats == [seats[0]] + seats[1..];
    assert SeatsInRoom(seats, "R") == seats;
  }
}

=== FILE: guard.dfy ===
/** The start-up guard the booking and profile screens share: read the
    `study_auth_token` / `study_user` pair, parse the user and require a
    `uid` before looking the student up. Also the records both screens use. */
module Guard {
  import opened Wrappers
  import opened Strings
  import opened Storage

  /** The fields the screens read from the parsed `study_user`. */
  datatype StoredUser = StoredUser(uid: Option<string>, name: Option<string>, email: Option<string>)

  /** `JSON.parse(userStr)`: a user object, JSON `null`, or a throw. */
  datatype Parsed = ParsedUser(user: Option<StoredUser>) | Unparsable

  /** A student record from `/api/students/by-uid`. */
  datatype Student = Student(
    id: string,
    name: Option<string>,
    email: Option<string>,
    phone: Option<string>,
    enrollmentNo: Option<string>,
    libraryId: Option<string>,
    branch: Option<string>,
    year: Option<string>,
    section: Option<string>)

  /** The lookup's answer: the body's `student` (possibly missing), or a
      failure (network or JSON). */
  datatype StudentReply = StudentBody(student: Option<Student>) | LookupFailed

  /** How far the guard gets before the student lookup. */
  datatype Check = NeedLogin | SignedIn(uid: string, user: StoredUser) | Unreadable

  /** `!user?.uid`: no object, or no non-empty `uid`. */
  predicate HasUid(p: Parsed) {
    p.ParsedUser? && p.user.Some? && Present(p.user.value.uid)
  }

  /** The guard up to the lookup: a missing or empty token or user sends the
      user to login; a user that does not parse is unreadable (the screens'
      `catch`); a parsed user without a `uid` sends the user to login;
      otherwise the `uid` is the one stored. */
  function ReadStudySession(st: Store, parse: string -> Parsed): (r: Check)
    ensures !Present(Get(st, StudyTokenKey)) || !Present(Get(st, StudyUserKey)) ==> r == NeedLogin
    ensures Present(Get(st, StudyTokenKey)) && Present(Get(st, StudyUserKey)) ==>
      && (r.Unreadable? <==> parse(st[StudyUserKey]).Unparsable?)
      && (r.SignedIn? <==> HasUid(parse(st[StudyUserKey])))
    ensures r.SignedIn? ==> Truthy(r.uid) && parse(st[StudyUserKey]) == ParsedUser(Some(r.user)) && r.user.uid == Some(r.uid)
  {
    var token := Get(st, StudyTokenKey);
    var userStr := Get(st, StudyUserKey);
    if !Present(token) || !Present(userStr) then NeedLogin
    else
      var parsed := parse(userStr.value);
      if parsed.Unparsable? then Unreadable
      else if !HasUid(parsed) then NeedLogin
      else SignedIn(parsed.user.value.uid.value, parsed.user.value)
  }

  /** `st && st._id`: a student came back and has a non-empty id. */
  predicate Found(reply: StudentReply) {
    reply.StudentBody? && reply.student.Some? && Truthy(reply.student.value.id)
  }
}

=== FILE: http.dfy ===
/** The two authenticated request builders: `authedFetch`, private to each
    student screen, which reads the token cached in storage, and `apiFetch`,
    which asks the identity provider for a fresh token. Only the request they
    hand to `fetch` is modelled; the network call itself is not. */
module Http {
  import opened Wrappers
  import opened Strings
  import opened Storage

  type Headers = map<string, string>

  const ApiBaseUrl := "https://my-library-pink-psi.vercel.app"
  const AuthorizationHeader := "Authorization"
  const ContentTypeHeader := "Content-Type"
  const JsonContentType := "application/json"
  const NotLoggedInError := "User not logged in"

  /** The `RequestInit` a caller passes; `headers` may be left out. */
  datatype Options = Options(httpMethod: Option<string>, body: Option<string>, headers: Option<Headers>)

  /** What is handed to `fetch`: the URL, the caller's options and the final headers. */
  datatype Request = Request(url: string, httpMethod: Option<string>, body: Option<string>, headers: Headers)

  function Bearer(token: string): string {
    "Bearer " + token
  }

  /** `options.headers || {}` */
  function CallerHeaders(o: Options): Headers {
    o.headers.GetOr(map[])
  }

  /** `authedFetch(path, options)`: `Content-Type` defaults to JSON but the
      caller may replace it; `Authorization` is set from the stored token when
      one is stored, overriding the caller, and otherwise the request still
      goes out with whatever the caller supplied. */
  function AuthedFetch(st: Store, path: string, options: Options): (r: Request)
    ensures r.url == ApiBaseUrl + path
    ensures r.httpMethod == options.httpMethod && r.body == options.body
    ensures Get(r.headers, ContentTypeHeader)
         == Some(if ContentTypeHeader in CallerHeaders(options) then CallerHeaders(options)[ContentTypeHeader] else JsonContentType)
    ensures Present(Get(st, StudyTokenKey))
         ==> Get(r.headers, AuthorizationHeader) == Some(Bearer(st[StudyTokenKey]))
    ensures !Present(Get(st, StudyTokenKey))
         ==> Get(r.headers, AuthorizationHeader) == Get(CallerHeaders(options), AuthorizationHeader)
    ensures forall k :: (k != AuthorizationHeader && k != ContentTypeHeader
         ==> Get(r.headers, k) == Get(CallerHeaders(options), k))
  {
    var headers := map[ContentTypeHeader := JsonContentType] + CallerHeaders(options);
    var token := Get(st, StudyTokenKey);
    var headers' := if Present(token) then headers[AuthorizationHeader := Bearer(token.value)] else headers;
    Request(ApiBaseUrl + path, options.httpMethod, options.body, headers')
  }

  /** `apiFetch(url, options)`. `freshToken` is `None` when the provider has no
      current user, and otherwise the token `getIdToken(true)` returns. Without
      a user it throws before any request; with one, the defaults come first
      and the caller's headers are spread last, so the caller can replace both
      `Authorization` and `Content-Type`. */
  function ApiFetch(freshToken: Option<string>, url: string, options: Options): (r: Result<Request, string>)
    ensures freshToken.None? <==> r.Failure?
    ensures r.Failure? ==> r.error == NotLoggedInError
    ensures r.Success? ==> r.value.url == url && r.value.httpMethod == options.httpMethod && r.value.body == options.body
    ensures r.Success? ==> (Get(r.value.headers, AuthorizationHeader)
         == Some(if AuthorizationHeader in CallerHeaders(options) then CallerHeaders(options)[AuthorizationHeader] else Bearer(freshToken.value)))
    ensures r.Success? ==> (Get(r.value.headers, ContentTypeHeader)
         == Some(if ContentTypeHeader in CallerHeaders(options) then CallerHeaders(options)[ContentTypeHeader] else JsonContentType))
    ensures r.Success? ==> (forall k :: (k != AuthorizationHeader && k != ContentTypeHeader
         ==> Get(r.value.headers, k) == Get(CallerHeaders(options), k)))
  {
    match freshToken
    case None => Failure(NotLoggedInError)
    case Some(token) =>
      var defaults := map[AuthorizationHeader := Bearer(token), ContentTypeHeader := JsonContentType];
      Success(Request(url, options.httpMethod, options.body, defaults + CallerHeaders(options)))
  }

  /** The two builders disagree exactly on who wins `Authorization`: when both
      a token and a caller value exist, `apiFetch` keeps the caller's and
      `authedFetch` the stored token's. */
  lemma AuthorizationPrecedence(st: Store, path: string, token: string, url: string, options: Options)
    requires Present(Get(st, StudyTokenKey))
    requires AuthorizationHeader in CallerHeaders(options)
    ensures Get(AuthedFetch(st, path, options).headers, AuthorizationHeader) == Some(Bearer(st[StudyTokenKey]))
    ensures Get(ApiFetch(Some(token), url, options).value.headers, AuthorizationHeader)
         == Some(CallerHeaders(options)[AuthorizationHeader])
  {
  }

  /** Without caller headers both builders produce the same two headers. */
  lemma DefaultHeadersAgree(st: Store, path: string, url: string, httpMethod: Option<string>, body: Option<string>)
    requires Present(Get(st, StudyTokenKey))
    ensures AuthedFetch(st, path, Options(httpMethod, body, None)).headers
         == ApiFetch(Some(st[StudyTokenKey]), url, Options(httpMethod, body, None)).value.headers
         == map[AuthorizationHeader := Bearer(st[StudyTokenKey]), ContentTypeHeader := JsonContentType]
  {
  }
}

=== FILE: login.dfy ===
/** The login screen: the input checks of the three entry points and the
    exchange with `/api/login` that decides what is persisted. The identity
    provider's sign-in and the HTTP call are replaced by their results. */
module Login {
  import opened Wrappers
  import opened Strings
  import opened Storage
  import opened Ui

  /** `data.user` of the login reply; each field may be missing. */
  datatype UserInfo = UserInfo(uid: Option<string>, email: Option<string>, name: Option<string>)

  /** The JSON body of `/api/login`. A missing `success` reads as false. */
  datatype LoginBody = LoginBody(
    success: bool,
    message: Option<string>,
    user: Field<UserInfo>,
    role: string,
    studentId: Option<string>,
    adminToken: Option<string>)

  /** What `/api/login` answers: a parsed body with the HTTP status flag, or
      a `fetch` or `res.json()` that threw (no network, a body that is not
      JSON) with the message of what it threw. */
  datatype LoginReply = LoginReply(httpOk: bool, body: LoginBody) | LoginUnreachable(message: string)

  /** The record saved under `study_user`. */
  datatype Payload = Payload(
    uid: Option<string>,
    email: Option<string>,
    name: Option<string>,
    role: string,
    studentId: Option<string>,
    adminToken: Option<string>)

  /** Why the exchange threw: the request or its parsing failed, the
      backend refused (with the message shown), or it accepted without a
      `user` to read fields from. */
  datatype LoginError = Transport(message: string) | Rejected(message: string) | Malformed(userIsNull: bool)

  /** The store after the exchange and the error it threw, if any. */
  datatype Exchange = Exchange(store: Store, error: Option<LoginError>)

  const LoginFailed := "Login failed"

  /** The message of the `TypeError` raised by `data.user.uid` when the
      accepted body's `user` is missing or `null`, in the wording of Hermes,
      the JavaScript engine React Native ships with. */
  function MissingUserText(userIsNull: bool): (m: string)
    ensures userIsNull ==> m == "Cannot read property 'uid' of null"
    ensures !userIsNull ==> m == "Cannot read property 'uid' of undefined"
  {
    "Cannot read property 'uid' of " + (if userIsNull then "null" else "undefined")
  }

  /** `res.ok && data.success` */
  predicate Accepted(reply: LoginReply) {
    reply.LoginReply? && reply.httpOk && reply.body.success
  }

  /** `data.message || "Login failed"` */
  function RejectionMessage(body: LoginBody): (m: string)
    ensures Truthy(m)
    ensures Present(body.message) ==> m == body.message.value
    ensures !Present(body.message) ==> m == LoginFailed
  {
    if Present(body.message) then body.message.value else LoginFailed
  }

  /** `callBackendLogin(idToken, method)`. A failed request rethrows its
      error and a refused reply throws with its message, both before anything
      is written; an accepted one writes the token, the payload built from
      `data.user` and `data`, and the role, and leaves every other key alone. */
  function CallBackendLogin(st: Store, idToken: string, reply: LoginReply, encode: Payload -> string): (r: Exchange)
    ensures r.error.Some? ==> r.store == st
    ensures reply.LoginUnreachable? ==> r.error == Some(Transport(reply.message))
    ensures reply.LoginReply? && !Accepted(reply) ==> r.error == Some(Rejected(RejectionMessage(reply.body)))
    ensures Accepted(reply) && !reply.body.user.Given? ==> r.error == Some(Malformed(reply.body.user.Null?))
    ensures r.error.None? <==> Accepted(reply) && reply.body.user.Given?
    ensures r.error.None? ==>
      var u := reply.body.user.value;
      && Get(r.store, StudyTokenKey) == Some(idToken)
      && Get(r.store, StudyUserKey)
         == Some(encode(Payload(u.uid, u.email, u.name, reply.body.role, reply.body.studentId, reply.body.adminToken)))
      && Get(r.store, UserTypeKey) == Some(reply.body.role)
    ensures forall k :: k != StudyTokenKey && k != StudyUserKey && k != UserTypeKey ==> Get(r.store, k) == Get(st, k)
  {
    if reply.LoginUnreachable? then Exchange(st, Some(Transport(reply.message)))
    else if !Accepted(reply) then Exchange(st, Some(Rejected(RejectionMessage(reply.body))))
    else if !reply.body.user.Given? then Exchange(st, Some(Malformed(reply.body.user.Null?)))
    else
      var u := reply.body.user.value;
      var payload := Payload(u.uid, u.email, u.name, reply.body.role, reply.body.studentId, reply.body.adminToken);
      Exchange(st[StudyTokenKey := idToken][StudyUserKey := encode(payload)][UserTypeKey := payload.role], None)
  }

  /** The three keys are written together or not at all. */
  lemma ExchangeIsAllOrNothing(st: Store, idToken: string, reply: LoginReply, encode: Payload -> string)
    ensures var r := CallBackendLogin(st, idToken, reply, encode);
            (r.store == st
             || (Get(r.store, StudyTokenKey) == Some(idToken) && StudyUserKey in r.store && UserTypeKey in r.store))
  {
  }

  // ---------------------------------------------------------------------------
  // Entry points
  // ---------------------------------------------------------------------------

  /** The email/password form after its empty-field check. */
  datatype EmailInput = MissingCredentials | Credentials(email: string, password: string)

  /** `loginEmail`'s check: either field empty stops with an alert; otherwise
      both are trimmed before being handed to the provider. The check looks
      at the untrimmed text. */
  function CheckEmailInput(email: string, password: string): (r: EmailInput)
    ensures r.MissingCredentials? <==> !Truthy(email) || !Truthy(password)
    ensures r.Credentials? ==> r.email == Trim(email) && r.password == Trim(password)
  {
    if !Truthy(email) || !Truthy(password) then MissingCredentials
    else Credentials(Trim(email), Trim(password))
  }

  /** `sendOTP`'s check: only a number in international form, starting with
      "+", reaches the provider, and it is passed unchanged. */
  datatype OtpStart = InvalidPhone | SendCode(phone: string)

  function CheckPhone(phone: string): (r: OtpStart)
    ensures r.InvalidPhone? <==> |phone| == 0 || phone[0] != '+'
    ensures r.SendCode? ==> r.phone == phone
  {
    if !StartsWith(phone, "+") then InvalidPhone else SendCode(phone)
  }

  /** The provider's answer to a sign-in attempt (email/password, or the OTP
      confirmation): the new user's ID token, or an error message. */
  datatype SignInResult = SignInOk(idToken: string) | SignInError(message: string)

  /** What a login attempt leaves behind. */
  datatype Attempt = Attempt(store: Store, alert: Option<Alert>, toProfile: bool)

  /** The message a failed exchange throws. */
  function ErrorMessage(e: LoginError): string {
    match e
    case Transport(m) => m
    case Rejected(m) => m
    case Malformed(isNull) => MissingUserText(isNull)
  }

  /** The store and the error message a `try` block leaves. */
  datatype Tried = Tried(store: Store, thrown: Option<string>)

  /** The `try` block shared by `loginEmail` and `verifyOTP`, after the
      provider has answered: a provider error is thrown with its message and
      writes nothing; a token goes through the exchange, whose error, if any,
      is thrown in turn. */
  function TryLogin(st: Store, signIn: SignInResult, reply: LoginReply, encode: Payload -> string): (r: Tried)
    ensures signIn.SignInError? ==> r == Tried(st, Some(signIn.message))
    ensures signIn.SignInOk? ==> r.store == CallBackendLogin(st, signIn.idToken, reply, encode).store
    ensures r.thrown.None? <==> signIn.SignInOk? && CallBackendLogin(st, signIn.idToken, reply, encode).error.None?
    ensures r.thrown.Some? ==> r.store == st
    ensures signIn.SignInOk? && reply.LoginUnreachable? ==> r.thrown == Some(reply.message)
    ensures signIn.SignInOk? && reply.LoginReply? && !Accepted(reply) ==> r.thrown == Some(RejectionMessage(reply.body))
    ensures signIn.SignInOk? && Accepted(reply) && !reply.body.user.Given? ==>
      r.thrown == Some(MissingUserText(reply.body.user.Null?))
  {
    match signIn
    case SignInError(msg) => Tried(st, Some(msg))
    case SignInOk(idToken) =>
      var ex := CallBackendLogin(st, idToken, reply, encode);
      if ex.error.None? then Tried(ex.store, None) else Tried(st, Some(ErrorMessage(ex.error.value)))
  }

  /** `loginEmail`: empty fields alert before any provider call; otherwise
      the provider (`signInWith`, from email and password to its answer) is
      asked with the trimmed credentials, and the profile tab is reached
      exactly when nothing was thrown. Whatever was thrown is shown as is
      under "Login failed". */
  function LoginEmail(st: Store, email: string, password: string, signInWith: (string, string) -> SignInResult,
                      reply: LoginReply, encode: Payload -> string): (r: Attempt)
    ensures !Truthy(email) || !Truthy(password) ==>
      r == Attempt(st, Some(Alert("Missing info", "Email and Password are required")), false)
    ensures Truthy(email) && Truthy(password) ==>
      var signIn := signInWith(Trim(email), Trim(password));
      && (r.toProfile <==> signIn.SignInOk? && CallBackendLogin(st, signIn.idToken, reply, encode).error.None?)
      && (signIn.SignInOk? ==> r.store == CallBackendLogin(st, signIn.idToken, reply, encode).store)
      && (signIn.SignInError? ==> r == Attempt(st, Some(Alert(LoginFailed, signIn.message)), false))
      && (signIn.SignInOk? && reply.LoginUnreachable? ==>
            r == Attempt(st, Some(Alert(LoginFailed, reply.message)), false))
      && (signIn.SignInOk? && reply.LoginReply? && !Accepted(reply) ==>
            r == Attempt(st, Some(Alert(LoginFailed, RejectionMessage(reply.body))), false))
      && (signIn.SignInOk? && Accepted(reply) && !reply.body.user.Given? ==>
            r == Attempt(st, Some(Alert(LoginFailed, MissingUserText(reply.body.user.Null?))), false))
    ensures r.toProfile <==> r.alert.None?
    ensures r.toProfile ==> Truthy(email) && Truthy(password) && Accepted(reply)
    ensures r.store != st ==> r.toProfile
  {
    match CheckEmailInput(email, password)
    case MissingCredentials => Attempt(st, Some(Alert("Missing info", "Email and Password are required")), false)
    case Credentials(e, p) =>
      var t := TryLogin(st, signInWith(e, p), reply, encode);
      match t.thrown
      case None => Attempt(t.store, None, true)
      case Some(msg) => Attempt(st, Some(Alert(LoginFailed, msg)), false)
  }

  /** Only the trimmed credentials matter: two filled-in forms that trim to
      the same email and password log in alike. */
  lemma LoginDependsOnTrimmedCredentials(st: Store, e1: string, p1: string, e2: string, p2: string,
                                         signInWith: (string, string) -> SignInResult,
                                         reply: LoginReply, encode: Payload -> string)
    requires Truthy(e1) && Truthy(p1) && Truthy(e2) && Truthy(p2)
    requires Trim(e1) == Trim(e2) && Trim(p1) == Trim(p2)
    ensures LoginEmail(st, e1, p1, signInWith, reply, encode) == LoginEmail(st, e2, p2, signInWith, reply, encode)
  {
  }

  /** `err.message || "Invalid OTP"`: the OTP path replaces an empty
      message, whatever threw it. */
  function OtpMessage(m: string): (r: string)
    ensures Truthy(r)
    ensures Truthy(m) ==> r == m
    ensures !Truthy(m) ==> r == "Invalid OTP"
  {
    if Truthy(m) then m else "Invalid OTP"
  }

  /** `verifyOTP`: without a pending confirmation nothing happens at all;
      otherwise the confirmed user's token goes through the same exchange,
      a success stays on the login screen, and whatever was thrown is shown
      under "Verification error", an empty message as "Invalid OTP". */
  function VerifyOtp(st: Store, pending: bool, signIn: SignInResult, reply: LoginReply, encode: Payload -> string): (r: Attempt)
    ensures !pending ==> r == Attempt(st, None, false)
    ensures !r.toProfile
    ensures pending ==> (r.alert.None? <==> signIn.SignInOk? && CallBackendLogin(st, signIn.idToken, reply, encode).error.None?)
    ensures r.store != st ==> pending && signIn.SignInOk? && Accepted(reply)
    ensures pending && signIn.SignInOk? ==> r.store == CallBackendLogin(st, signIn.idToken, reply, encode).store
    ensures r.alert.Some? ==> r.alert.value.title == "Verification error" && Truthy(r.alert.value.body)
    ensures pending && signIn.SignInError? ==>
      r == Attempt(st, Some(Alert("Verification error", OtpMessage(signIn.message))), false)
    ensures pending && signIn.SignInOk? && reply.LoginUnreachable? ==>
      r == Attempt(st, Some(Alert("Verification error", OtpMessage(reply.message))), false)
    ensures pending && signIn.SignInOk? && reply.LoginReply? && !Accepted(reply) ==>
      r == Attempt(st, Some(Alert("Verification error", RejectionMessage(reply.body))), false)
    ensures pending && signIn.SignInOk? && Accepted(reply) && !reply.body.user.Given? ==>
      r == Attempt(st, Some(Alert("Verification error", MissingUserText(reply.body.user.Null?))), false)
  {
    if !pending then Attempt(st, None, false)
    else
      var t := TryLogin(st, signIn, reply, encode);
      match t.thrown
      case None => Attempt(t.store, None, false)
      case Some(msg) => Attempt(st, Some(Alert("Verification error", OtpMessage(msg))), false)
  }

  /** Both entry points persist the same thing for the same provider answer
      and backend reply, and fail on the same inputs; they differ only in
      where they go and how they title the alert. */
  lemma EmailAndOtpPersistAlike(st: Store, email: string, password: string, signInWith: (string, string) -> SignInResult,
                                 signIn: SignInResult, reply: LoginReply, encode: Payload -> string)
    requires Truthy(email) && Truthy(password) && signIn == signInWith(Trim(email), Trim(password))
    ensures LoginEmail(st, email, password, signInWith, reply, encode).store == VerifyOtp(st, true, signIn, reply, encode).store
    ensures LoginEmail(st, email, password, signInWith, reply, encode).alert.None? <==> VerifyOtp(st, true, signIn, reply, encode).alert.None?
    ensures LoginEmail(st, email, password, signInWith, reply, encode).toProfile <==> VerifyOtp(st, true, signIn, reply, encode).alert.None?
  {
  }
}

=== FILE: profile.dfy ===
/** The profile screen: the same start-up guard as the booking screen, a
    fallback record when the lookup finds no student, the list of detail rows
    it shows, and its logout. */
module Profile {
  import opened Wrappers
  import opened Strings
  import opened Storage
  import opened Seqs
  import opened Guard
  import Http
  import Attendance

  /** What the screen ends up showing. */
  datatype Outcome = ToLogin | Show(student: Student) | CouldNotLoad

  /** `/api/students/by-uid?uid=…`, the lookup the guard issues. */
  function LookupRequest(st: Store, uid: string): (r: Http.Request)
    ensures r.url == Http.ApiBaseUrl + "/api/students/by-uid?uid=" + uid
    ensures r.httpMethod.None? && r.body.None?
    ensures Present(Get(st, StudyTokenKey))
        ==> Get(r.headers, Http.AuthorizationHeader) == Some(Http.Bearer(st[StudyTokenKey]))
  {
    Http.AuthedFetch(st, "/api/students/by-uid?uid=" + uid, Http.Options(None, None, None))
  }

  /** The record shown when the lookup answers without a usable student:
      the id `"unknown"` and the stored user's name and email, nothing else. */
  function Fallback(user: StoredUser): (s: Student)
    ensures s.id == "unknown" && s.name == user.name && s.email == user.email
    ensures s.phone.None? && s.enrollmentNo.None? && s.libraryId.None?
    ensures s.branch.None? && s.year.None? && s.section.None?
  {
    Student("unknown", user.name, user.email, None, None, None, None, None, None)
  }

  /** The guard and load of the profile screen. No token or user, or a user
      without a `uid`, goes to login. A user that does not parse, or a lookup
      that fails, leaves no student and the "Could not load profile" view. A
      lookup that finds a student with an id shows it; any other answer shows
      the fallback built from the stored user. */
  function LoadProfile(st: Store, parse: string -> Parsed, reply: StudentReply): (r: Outcome)
    ensures r.ToLogin? <==> ReadStudySession(st, parse).NeedLogin?
    ensures r.CouldNotLoad? <==> (ReadStudySession(st, parse).Unreadable?
                               || (ReadStudySession(st, parse).SignedIn? && reply.LookupFailed?))
    ensures r.Show? && Found(reply) ==> r.student == reply.student.value
    ensures r.Show? && !Found(reply) ==> r.student == Fallback(ReadStudySession(st, parse).user)
    ensures r.Show? ==> Truthy(r.student.id)
  {
    match ReadStudySession(st, parse)
    case NeedLogin => ToLogin
    case Unreadable => CouldNotLoad
    case SignedIn(_, user) =>
      if reply.LookupFailed? then CouldNotLoad
      else if Found(reply) then Show(reply.student.value)
      else Show(Fallback(user))
  }

  /** `logout`: both study keys are removed; `userType` and everything else
      stay as they were. */
  function Logout(st: Store): (r: Store)
    ensures StudyTokenKey !in r && StudyUserKey !in r
    ensures forall k :: k != StudyTokenKey && k != StudyUserKey ==> Get(r, k) == Get(st, k)
  {
    RemoveBoth(st, StudyTokenKey, StudyUserKey)
  }

  /** After logout the screen's own guard sends the user back to login,
      whatever the lookup would have answered. */
  lemma LogoutLeadsToLogin(st: Store, parse: string -> Parsed, reply: StudentReply)
    ensures LoadProfile(Logout(st), parse, reply) == ToLogin
  {
    assert Get(Logout(st), StudyTokenKey).None?;
  }

  /** Logout closes the attendance screen too: its own token check now
      resets to login and keeps the spinner, so nothing is loaded. */
  lemma LogoutClosesAttendance(st: Store)
    ensures Attendance.CheckAuth(Logout(st)).toLogin
    ensures Attendance.CheckAuth(Logout(st)).authChecking
  {
  }

  // ---------------------------------------------------------------------------
  // The details card
  // ---------------------------------------------------------------------------

  /** One line of the details card. */
  datatype InfoRow = InfoRow(title: string, value: Option<string>)

  const Titles: seq<string> := ["Name", "Email", "Phone", "Enrollment No.", "Library ID", "Branch", "Year", "Section"]

  /** The eight candidate rows, in display order, one per title. */
  function AllRows(s: Student): (rows: seq<InfoRow>)
    ensures |rows| == |Titles|
    ensures forall i :: 0 <= i < |rows| ==> rows[i].title == Titles[i]
  {
    [InfoRow("Name", s.name), InfoRow("Email", s.email), InfoRow("Phone", s.phone),
     InfoRow("Enrollment No.", s.enrollmentNo), InfoRow("Library ID", s.libraryId),
     InfoRow("Branch", s.branch), InfoRow("Year", s.year), InfoRow("Section", s.section)]
  }

  /** The rows' titles are pairwise different for every student, so they
      serve as React keys. */
  lemma TitlesDistinct(s: Student)
    ensures forall i, j :: 0 <= i < j < |AllRows(s)| ==> AllRows(s)[i].title != AllRows(s)[j].title
  {
  }

  /** `row.value && …`: the row is rendered. */
  predicate Shown(row: InfoRow) {
    Present(row.value)
  }

  /** `infoRows.map(row => row.value && …)`: the rows with a non-empty value,
      in display order. */
  function InfoRows(s: Student): (r: seq<InfoRow>)
    ensures forall i :: 0 <= i < |r| ==> Present(r[i].value)
  {
    Filter(AllRows(s), Shown)
  }

  /** A row is rendered exactly when it is one of the candidates and its
      value is a non-empty string. */
  lemma InfoRowMembership(s: Student, row: InfoRow)
    ensures row in InfoRows(s) <==> row in AllRows(s) && Present(row.value)
  {
    FilterMembership(AllRows(s), Shown, row);
  }

  /** Each field shows up as its row exactly when it holds a non-empty string. */
  lemma RowShownIffPresent(s: Student)
    ensures InfoRow("Name", s.name) in InfoRows(s) <==> Present(s.name)
    ensures InfoRow("Email", s.email) in InfoRows(s) <==> Present(s.email)
    ensures InfoRow("Phone", s.phone) in InfoRows(s) <==> Present(s.phone)
    ensures InfoRow("Enrollment No.", s.enrollmentNo) in InfoRows(s) <==> Present(s.enrollmentNo)
    ensures InfoRow("Library ID", s.libraryId) in InfoRows(s) <==> Present(s.libraryId)
    ensures InfoRow("Branch", s.branch) in InfoRows(s) <==> Present(s.branch)
    ensures InfoRow("Year", s.year) in InfoRows(s) <==> Present(s.year)
    ensures InfoRow("Section", s.section) in InfoRows(s) <==> Present(s.section)
  {
    var all := AllRows(s);
    assert all[0] == InfoRow("Name", s.name) && all[1] == InfoRow("Email", s.email);
    assert all[2] == InfoRow("Phone", s.phone) && all[3] == InfoRow("Enrollment No.", s.enrollmentNo);
    assert all[4] == InfoRow("Library ID", s.libraryId) && all[5] == InfoRow("Branch", s.branch);
    assert all[6] == InfoRow("Year", s.year) && all[7] == InfoRow("Section", s.section);
    InfoRowMembership(s, InfoRow("Name", s.name));
    InfoRowMembership(s, InfoRow("Email", s.email));
    InfoRowMembership(s, InfoRow("Phone", s.phone));
    InfoRowMembership(s, InfoRow("Enrollment No.", s.enrollmentNo));
    InfoRowMembership(s, InfoRow("Library ID", s.libraryId));
    InfoRowMembership(s, InfoRow("Branch", s.branch));
    InfoRowMembership(s, InfoRow("Year", s.year));
    InfoRowMembership(s, InfoRow("Section", s.section));
  }

  /** The rows keep their display order. */
  lemma InfoRowsInOrder(s: Student)
    ensures IsSubsequence(InfoRows(s), AllRows(s))
  {
  }

  /** The fallback record shows at most its name and email. */
  lemma FallbackShowsNameAndEmailOnly(user: StoredUser, row: InfoRow)
    ensures row in InfoRows(Fallback(user)) ==> row.title == "Name" || row.title == "Email"
  {
    InfoRowMembership(Fallback(user), row);
    FallbackCandidates(user, row);
  }

  lemma FallbackCandidates(user: StoredUser, row: InfoRow)
    ensures row in AllRows(Fallback(user)) && Present(row.value) ==> row.title == "Name" || row.title == "Email"
  {
  }

  /** The avatar letter: the first character of the name, upper-cased, or
      "S" when there is no name. */
  function Avatar(s: Student): (r: string)
    ensures |r| == 1
    ensures Present(s.name) ==> r[0] == UpperChar(s.name.value[0])
    ensures !Present(s.name) ==> r == "S"
  {
    if Present(s.name) then [UpperChar(s.name.value[0])] else "S"
  }

  /** The avatar letter is the heading's first character, upper-cased:
      "Student" starts with the "S" shown when there is no name. */
  lemma AvatarMatchesDisplayName(s: Student)
    ensures Avatar(s) == [UpperChar(DisplayName(s)[0])]
  {
    if !Present(s.name) {
      assert DisplayName(s)[0] == 'S';
    }
  }

  /** The heading: the name, or "Student" when there is none. */
  function DisplayName(s: Student): (r: string)
    ensures Truthy(r)
    ensures Present(s.name) ==> r == s.name.value
    ensures !Present(s.name) ==> r == "Student"
  {
    if Present(s.name) then s.name.value else "Student"
  }
}

=== FILE: register.dfy ===
/** The registration screen: the request it sends and the message and alert
    it shows for each answer. */
module Register {
  import opened Wrappers
  import opened Strings
  import opened Ui
  import Login

  /** The JSON body posted to `/api/register`. */
  datatype RegisterRequest = RegisterRequest(
    provider: string,
    email: string,
    password: string,
    name: string,
    phoneNumber: Option<string>)

  /** The answer: a parsed body with its `error` field, or a failure of the
      request or of `res.json()`. The HTTP status is not looked at. */
  datatype RegisterReply = RegisterBody(error: Option<string>) | RegisterFailed

  /** What one press of "Register" leaves behind: the request sent (if any),
      the message under the form (if it was set) and the alert shown. */
  datatype RegisterOutcome = RegisterOutcome(
    sent: Option<RegisterRequest>,
    message: Option<string>,
    alert: Option<Alert>)

  const Created := "Account Created Successfully!"
  const SomethingWrong := "Something went wrong"

  /** `register()`. Either field empty alerts and sends nothing. Otherwise the
      credentials go out unchanged with provider "email", the name
      "New User" and no phone number; a body carrying an `error` shows that
      error, any other body shows the success message and alert, and a
      failed request shows "Something went wrong". */
  function Submit(email: string, password: string, reply: RegisterReply): (r: RegisterOutcome)
    ensures r.sent.None? <==> !Truthy(email) || !Truthy(password)
    ensures r.sent.None? ==> r.message.None? && r.alert == Some(Alert("Missing info", "Email and Password are required"))
    ensures r.sent.Some? ==> r.sent.value == RegisterRequest("email", email, password, "New User", None)
    ensures r.sent.Some? ==> r.message.Some?
    ensures r.sent.Some? && reply.RegisterFailed? ==> r.message == Some(SomethingWrong) && r.alert.None?
    ensures r.sent.Some? && reply.RegisterBody? && Present(reply.error)
         ==> r.message == reply.error && r.alert.None?
    ensures r.sent.Some? && r.alert.Some? ==> r.message == Some(Created)
    ensures r.alert == Some(Alert("Success", "Account Created!"))
        <==> r.sent.Some? && reply.RegisterBody? && !Present(reply.error)
  {
    if !Truthy(email) || !Truthy(password) then
      RegisterOutcome(None, None, Some(Alert("Missing info", "Email and Password are required")))
    else
      var req := RegisterRequest("email", email, password, "New User", None);
      match reply
      case RegisterFailed => RegisterOutcome(Some(req), Some(SomethingWrong), None)
      case RegisterBody(error) =>
        if Present(error) then RegisterOutcome(Some(req), error, None)
        else RegisterOutcome(Some(req), Some(Created), Some(Alert("Success", "Account Created!")))
  }

  /** Registration refuses exactly the inputs the email login refuses, but
      sends the credentials as typed, while login trims them first: what
      login hands the provider is the trimmed form of what was registered. */
  lemma RegisterSendsUntrimmed(email: string, password: string, reply: RegisterReply)
    ensures Submit(email, password, reply).sent.None? <==> Login.CheckEmailInput(email, password).MissingCredentials?
    ensures var r := Submit(email, password, reply);
            r.sent.Some? ==> Login.CheckEmailInput(email, password)
                             == Login.Credentials(Trim(r.sent.value.email), Trim(r.sent.value.password))
  {
  }
}

=== FILE: rootnav.dfy ===
/** The root navigator: it reads `userType` once at mount and mounts the
    navigator for that role. */
module RootNav {
  import opened Wrappers
  import opened Strings
  import opened Storage
  import Login

  datatype Navigator = StudentNav | AdminNav | AuthNav

  /** Before the stored role has been read only a spinner is shown. */
  datatype RootView = Loading | Ready(mounted: set<Navigator>)

  /** The three conditional children for a stored role: the student tabs for
      "student", the admin stack for "admin", the auth stack when nothing (or
      an empty string) is stored, and nothing at all for any other role. */
  function Mounted(userType: Option<string>): (r: set<Navigator>)
    ensures |r| <= 1
    ensures StudentNav in r <==> userType == Some("student")
    ensures AdminNav in r <==> userType == Some("admin")
    ensures AuthNav in r <==> !Present(userType)
  {
    if userType == Some("student") then {StudentNav}
    else if userType == Some("admin") then {AdminNav}
    else if !Present(userType) then {AuthNav}
    else {}
  }

  /** `checkUser` at mount: the view once the read of `userType` completes.
      The spinner is gone and at most one navigator is mounted, chosen by
      what the store holds under `userType`; a role other than the two known
      ones leaves the container empty. */
  function CheckUser(st: Store): (r: RootView)
    ensures r.Ready?
    ensures |r.mounted| <= 1
    ensures StudentNav in r.mounted <==> UserTypeKey in st && st[UserTypeKey] == "student"
    ensures AdminNav in r.mounted <==> UserTypeKey in st && st[UserTypeKey] == "admin"
    ensures AuthNav in r.mounted <==> UserTypeKey !in st || st[UserTypeKey] == ""
    ensures r.mounted == {} <==> UserTypeKey in st && st[UserTypeKey] !in {"", "student", "admin"}
  {
    Ready(Mounted(Get(st, UserTypeKey)))
  }

  /** A restart after a successful login mounts the navigator of the role
      the backend returned, and never the auth stack. */
  lemma LoginRoutesByRole(st: Store, idToken: string, reply: Login.LoginReply, encode: Login.Payload -> string)
    requires Login.CallBackendLogin(st, idToken, reply, encode).error.None?
    ensures var v := CheckUser(Login.CallBackendLogin(st, idToken, reply, encode).store);
            (&& (reply.body.role == "student" ==> v.mounted == {StudentNav})
             && (reply.body.role == "admin" ==> v.mounted == {AdminNav})
             && (Truthy(reply.body.role) ==> AuthNav !in v.mounted))
  {
    var r := Login.CallBackendLogin(st, idToken, reply, encode);
    assert Get(r.store, UserTypeKey) == Some(reply.body.role);
  }

  /** Without a stored role, only the auth stack is mounted. */
  lemma FreshInstallShowsAuth(st: Store)
    requires UserTypeKey !in st
    ensures CheckUser(st) == Ready({AuthNav})
  {
  }
}

=== FILE: seqs.dfy ===
/** Order-preserving filtering of sequences (JavaScript's `Array.prototype.filter`). */
module Seqs {

  /** `r` can be obtained from `s` by deleting elements. */
  ghost predicate IsSubsequence<T>(r: seq<T>, s: seq<T>)
    decreases |s|
  {
    |r| == 0 || (|s| > 0 && ((r[0] == s[0] && IsSubsequence(r[1..], s[1..])) || IsSubsequence(r, s[1..])))
  }

  /** The elements of `s` satisfying `p`, in their original order. Together the
      three postconditions determine the result: a subsequence of `s` that
      holds every element satisfying `p` as often as `s` does, and nothing else. */
  function Filter<T(!new)>(s: seq<T>, p: T -> bool): (r: seq<T>)
    ensures IsSubsequence(r, s)
    ensures forall i :: 0 <= i < |r| ==> p(r[i])
    ensures forall x :: multiset(r)[x] == if p(x) then multiset(s)[x] else 0
  {
    if |s| == 0 then []
    else
      var rest := Filter(s[1..], p);
      assert s == [s[0]] + s[1..];
      if p(s[0]) then [s[0]] + rest else rest
  }

  /** An element is kept exactly when it occurs in `s` and satisfies `p`. */
  lemma FilterMembership<T(!new)>(s: seq<T>, p: T -> bool, x: T)
    ensures x in Filter(s, p) <==> x in s && p(x)
  {
    var r := Filter(s, p);
    assert x in r <==> multiset(r)[x] > 0;
    assert x in s <==> multiset(s)[x] > 0;
  }

  /** Filtering distributes over concatenation: the relative order of the kept
      elements is the order they had in the input. */
  lemma {:induction false} FilterAppend<T(!new)>(a: seq<T>, b: seq<T>, p: T -> bool)
    ensures Filter(a + b, p) == Filter(a, p) + Filter(b, p)
    decreases |a|
  {
    if |a| > 0 {
      assert (a + b)[1..] == a[1..] + b;
      FilterAppend(a[1..], b, p);
    } else {
      assert a + b == b;
    }
  }

  /** When every element satisfies `p`, nothing is removed. */
  lemma {:induction false} FilterAll<T(!new)>(s: seq<T>, p: T -> bool)
    requires forall i :: 0 <= i < |s| ==> p(s[i])
    ensures Filter(s, p) == s
    decreases |s|
  {
    if |s| > 0 {
      FilterAll(s[1..], p);
    }
  }
}

=== FILE: session.dfy ===
/** The session manager (`AuthProvider`): the in-memory triple
    `(user, token, loading)` and its write-through copy under the storage keys
    `token` and `user`. Each transition of the provider is a function from the
    current world to the next; the identity provider's answers (the signed-in
    user, a fresh ID token) arrive as parameters. */
module Session {
  import opened Wrappers
  import opened Strings
  import opened Storage

  /** A user as the identity provider reports it. */
  datatype Principal = Principal(uid: string, email: Option<string>, phoneNumber: Option<string>)

  /** What `JSON.parse` makes of a stored user: a user, the JSON literal
      `null` (which parses without error to no user), or a throw. */
  datatype Decoded = Decoded(user: Option<Principal>) | Undecodable

  /** `JSON.stringify` and `JSON.parse` of a user. */
  datatype Codec = Codec(encode: Principal -> string, decode: string -> Decoded)

  /** A codec that reads back what it wrote, and never writes an empty string. */
  ghost predicate Faithful(c: Codec) {
    forall p :: c.decode(c.encode(p)) == Decoded(Some(p)) && Truthy(c.encode(p))
  }

  /** `JSON.parse` of the text yields a user. */
  predicate DecodesToUser(codec: Codec, json: string) {
    codec.decode(json).Decoded? && codec.decode(json).user.Some?
  }

  /** Whatever the store holds under `user`, if anything, reads back as a
      user: the only kind of store the app itself writes. */
  predicate UserKeyReadable(st: Store, codec: Codec) {
    Present(Get(st, UserKey)) ==> DecodesToUser(codec, st[UserKey])
  }

  datatype State = State(user: Option<Principal>, token: Option<string>, loading: bool)

  /** Both halves of the session are set or cleared together. */
  predicate Consistent(s: State) {
    s.user.None? <==> s.token.None?
  }

  /** The in-memory session together with the device store. */
  datatype World = World(state: State, store: Store)

  /** `useState` defaults: nobody signed in, still loading. */
  const Initial := State(None, None, true)

  /** What `onAuthStateChanged` delivers: a user with the token
      `getIdToken(true)` produced for it, or nobody. */
  datatype AuthEvent = SignedIn(user: Principal, freshToken: string) | SignedOut

  /** `loadStoredUser` as written: the token is published before the stored
      user is parsed. When `JSON.parse` throws, the token is set, the user is
      not, and `loading` is never cleared by this path; when the stored user
      is `null`, the token is set next to no user and loading ends. */
  function HydrateAsWritten(w: World, codec: Codec): (r: World)
    ensures r.store == w.store
    ensures Restorable(w.store, codec) || !Present(Get(w.store, TokenKey)) || !Present(Get(w.store, UserKey))
        ==> r == Hydrate(w, codec)
    ensures Present(Get(w.store, TokenKey)) && Present(Get(w.store, UserKey))
            && codec.decode(w.store[UserKey]).Undecodable?
        ==> r.state == w.state.(token := Get(w.store, TokenKey))
    ensures Present(Get(w.store, TokenKey)) && Present(Get(w.store, UserKey))
            && codec.decode(w.store[UserKey]) == Decoded(None)
        ==> r.state == State(None, Get(w.store, TokenKey), false)
  {
    var token := Get(w.store, TokenKey);
    var userJson := Get(w.store, UserKey);
    if Present(token) && Present(userJson) then
      match codec.decode(userJson.value)
      case Decoded(u) => World(State(u, token, false), w.store)
      case Undecodable => World(w.state.(token := token), w.store)
    else
      World(w.state.(loading := false), w.store)
  }

  /** Storage holds a non-empty token and a non-empty user that parses to a
      user. */
  predicate Restorable(st: Store, codec: Codec) {
    Present(Get(st, TokenKey)) && Present(Get(st, UserKey)) && DecodesToUser(codec, st[UserKey])
  }

  /** `loadStoredUser` with the stored pair published only once both halves
      are readable. The session is taken from storage exactly when both keys
      hold non-empty strings and the user parses; otherwise it is left alone.
      Either way loading ends and storage is not written. */
  function Hydrate(w: World, codec: Codec): (r: World)
    ensures r.store == w.store
    ensures !r.state.loading
    ensures Consistent(w.state) ==> Consistent(r.state)
    ensures Restorable(w.store, codec)
        ==> r.state.token == Get(w.store, TokenKey) && r.state.user == codec.decode(w.store[UserKey]).user
    ensures !Restorable(w.store, codec) ==> r.state.user == w.state.user && r.state.token == w.state.token
  {
    var token := Get(w.store, TokenKey);
    var userJson := Get(w.store, UserKey);
    if Restorable(w.store, codec) then
      World(State(codec.decode(userJson.value).user, token, false), w.store)
    else
      World(w.state.(loading := false), w.store)
  }

  /** The `onAuthStateChanged` callback. A signed-in user writes the fresh
      token and the user to storage and publishes both; a sign-out removes
      both keys and clears both. Loading ends in either case. */
  function OnAuthChanged(w: World, e: AuthEvent, codec: Codec): (r: World)
    ensures Consistent(r.state) && !r.state.loading
    ensures Get(r.store, TokenKey) == r.state.token
    ensures e.SignedIn? ==> (r.state.user == Some(e.user) && r.state.token == Some(e.freshToken)
                         && Get(r.store, UserKey) == Some(codec.encode(e.user)))
    ensures e.SignedOut? ==> r.state.user.None? && UserKey !in r.store
    ensures forall k :: k != TokenKey && k != UserKey ==> Get(r.store, k) == Get(w.store, k)
  {
    match e
    case SignedIn(p, t) =>
      World(State(Some(p), Some(t), false), w.store[TokenKey := t][UserKey := codec.encode(p)])
    case SignedOut =>
      World(State(None, None, false), RemoveBoth(w.store, TokenKey, UserKey))
  }

  /** One firing of the 30-minute refresh timer, which exists only while a
      user is set: the new token replaces the old one in storage and in
      state, and the user is untouched. With no user nothing happens. */
  function Refresh(w: World, freshToken: string): (r: World)
    ensures r.state.user == w.state.user && r.state.loading == w.state.loading
    ensures w.state.user.None? ==> r == w
    ensures w.state.user.Some? ==> r.state.token == Some(freshToken) && Get(r.store, TokenKey) == Some(freshToken)
    ensures forall k :: k != TokenKey ==> Get(r.store, k) == Get(w.store, k)
    ensures Consistent(w.state) ==> Consistent(r.state)
  {
    if w.state.user.None? then w
    else World(w.state.(token := Some(freshToken)), w.store[TokenKey := freshToken])
  }

  /** `logout`: after the provider sign-out, both keys are removed and both
      halves of the session cleared; `loading` is not touched. */
  function Logout(w: World): (r: World)
    ensures r.state.user.None? && r.state.token.None? && r.state.loading == w.state.loading
    ensures TokenKey !in r.store && UserKey !in r.store
    ensures forall k :: k != TokenKey && k != UserKey ==> Get(r.store, k) == Get(w.store, k)
  {
    World(State(None, None, w.state.loading), RemoveBoth(w.store, TokenKey, UserKey))
  }

  lemma LogoutIdempotent(w: World)
    ensures Logout(Logout(w)) == Logout(w)
  {
    assert RemoveBoth(RemoveBoth(w.store, TokenKey, UserKey), TokenKey, UserKey)
        == RemoveBoth(w.store, TokenKey, UserKey);
  }

  /** Everything that can happen to the session, in any order. */
  datatype Event = ColdStart | Changed(e: AuthEvent) | Tick(freshToken: string) | SignOut

  /** Which `loadStoredUser` a cold start runs: the one in the source, or
      the corrected one. */
  datatype Loader = AsWritten | Corrected

  function Step(w: World, ev: Event, codec: Codec, loader: Loader): World {
    match ev
    case ColdStart => if loader.AsWritten? then HydrateAsWritten(w, codec) else Hydrate(w, codec)
    case Changed(e) => OnAuthChanged(w, e, codec)
    case Tick(t) => Refresh(w, t)
    case SignOut => Logout(w)
  }

  function Run(w: World, evs: seq<Event>, codec: Codec, loader: Loader): World
    decreases |evs|
  {
    if |evs| == 0 then w else Run(Step(w, evs[0], codec, loader), evs[1..], codec, loader)
  }

  /** Every transition keeps the stored user readable when the codec reads
      back what it writes: sign-in writes an encoded user, sign-out and
      logout remove it, and the rest leave it alone. */
  lemma StepKeepsUserReadable(w: World, ev: Event, codec: Codec, loader: Loader)
    requires Faithful(codec) && UserKeyReadable(w.store, codec)
    ensures UserKeyReadable(Step(w, ev, codec, loader).store, codec)
  {
    if ev.Changed? && ev.e.SignedIn? {
      assert codec.decode(codec.encode(ev.e.user)) == Decoded(Some(ev.e.user));
    }
  }

  /** On a store with a readable user the source's `loadStoredUser` is the
      corrected one. */
  lemma HydrateAsWrittenOnReadableStore(w: World, codec: Codec)
    requires UserKeyReadable(w.store, codec)
    ensures HydrateAsWritten(w, codec) == Hydrate(w, codec)
  {
  }

  /** Along any sequence of events, user and token stay set or cleared
      together, and once loading has ended it never starts again. With the
      corrected loader this holds from any store; with the loader as
      written it holds from any store the app wrote itself, given a codec
      that reads back what it writes, and the store stays that way. */
  lemma {:induction false} RunPreservesInvariants(w: World, evs: seq<Event>, codec: Codec, loader: Loader)
    requires Consistent(w.state)
    requires loader.AsWritten? ==> Faithful(codec) && UserKeyReadable(w.store, codec)
    ensures Consistent(Run(w, evs, codec, loader).state)
    ensures !w.state.loading ==> !Run(w, evs, codec, loader).state.loading
    ensures loader.AsWritten? ==> UserKeyReadable(Run(w, evs, codec, loader).store, codec)
    decreases |evs|
  {
    if |evs| > 0 {
      var w' := Step(w, evs[0], codec, loader);
      if loader.AsWritten? {
        StepKeepsUserReadable(w, evs[0], codec, loader);
        if evs[0].ColdStart? {
          HydrateAsWrittenOnReadableStore(w, codec);
        }
      }
      assert Consistent(w'.state) && (!w.state.loading ==> !w'.state.loading);
      RunPreservesInvariants(w', evs[1..], codec, loader);
    }
  }

  /** Every run from a fresh start with the corrected loader keeps the
      invariant at every point. */
  lemma InitialRunsConsistent(store: Store, evs: seq<Event>, codec: Codec)
    ensures Consistent(Run(World(Initial, store), evs, codec, Corrected).state)
  {
    RunPreservesInvariants(World(Initial, store), evs, codec, Corrected);
  }

  /** The provider as written keeps the invariant too, from a fresh start
      on a store whose user, if any, reads back. */
  lemma AppWrittenRunsConsistent(store: Store, evs: seq<Event>, codec: Codec)
    requires Faithful(codec) && UserKeyReadable(store, codec)
    ensures Consistent(Run(World(Initial, store), evs, codec, AsWritten).state)
  {
    RunPreservesInvariants(World(Initial, store), evs, codec, AsWritten);
  }

  /** A restart after a sign-in finds the same session in storage. */
  lemma RestartRestoresSession(w: World, p: Principal, t: string, codec: Codec)
    requires Faithful(codec) && Truthy(t)
    ensures var saved := OnAuthChanged(w, SignedIn(p, t), codec).store;
            Hydrate(World(Initial, saved), codec).state == State(Some(p), Some(t), false)
  {
    var saved := OnAuthChanged(w, SignedIn(p, t), codec).store;
    assert codec.decode(codec.encode(p)) == Decoded(Some(p)) && Truthy(codec.encode(p));
    assert saved[UserKey] == codec.encode(p);
  }

  /** The provider's sign-out wins over whatever hydration restored. */
  lemma SignOutAfterHydrateClears(w: World, codec: Codec)
    ensures var r := OnAuthChanged(Hydrate(w, codec), SignedOut, codec);
            r.state == State(None, None, false) && TokenKey !in r.store && UserKey !in r.store
  {
  }

  /** The defect of `HydrateAsWritten`: a stored user that does not parse
      leaves a token without a user and the session still loading; a stored
      `null` leaves a token without a user once loading has ended. */
  lemma HydrateAsWrittenBreaksConsistency()
    ensures var codec := Codec(p => "{}", s => Undecodable);
            var r := HydrateAsWritten(World(Initial, map[TokenKey := "T", UserKey := "{"]), codec);
            r.state == State(None, Some("T"), true) && !Consistent(r.state)
    ensures var codec := Codec(p => "{}", s => Decoded(None));
            var r := HydrateAsWritten(World(Initial, map[TokenKey := "T", UserKey := "null"]), codec);
            r.state == State(None, Some("T"), false) && !Consistent(r.state)
  {
  }
}

=== FILE: storage.dfy ===
/** The device's persistent key/value store (AsyncStorage), as a map. */
module Storage {
  import opened Wrappers

  type Store = map<string, string>

  /** Keys written by the session manager. */
  const TokenKey := "token"
  const UserKey := "user"

  /** Keys written by the login screen and read by the student screens. */
  const StudyTokenKey := "study_auth_token"
  const StudyUserKey := "study_user"
  const UserTypeKey := "userType"

  /** `getItem`: the stored string, or null. */
  function Get(st: Store, key: string): Option<string> {
    if key in st then Some(st[key]) else None
  }

  /** `removeItem` of two keys, in any order. */
  function RemoveBoth(st: Store, k1: string, k2: string): (r: Store)
    ensures k1 !in r && k2 !in r
    ensures forall k :: k != k1 && k != k2 ==> Get(r, k) == Get(st, k)
  {
    st - {k1, k2}
  }
}

=== FILE: strings.dfy ===
/** String helpers with JavaScript semantics: truthiness, the `<` order on
    strings, `trim`, `startsWith` and `toUpperCase` of one character. */
module Strings {
  import opened Wrappers

  /** A JavaScript string is truthy exactly when it is non-empty. */
  predicate Truthy(s: string) {
    s != ""
  }

  /** A nullable string is truthy when present and non-empty. */
  predicate Present(o: Option<string>) {
    o.Some? && Truthy(o.value)
  }

  /** JavaScript's `a < b` on strings: lexicographic order of code units, a
      proper prefix being smaller. */
  predicate Less(a: string, b: string)
    decreases |a|
  {
    |b| > 0 && (|a| == 0 || a[0] < b[0] || (a[0] == b[0] && Less(a[1..], b[1..])))
  }

  /** JavaScript's `a <= b` on strings. */
  predicate LessEq(a: string, b: string) {
    a == b || Less(a, b)
  }

  lemma {:induction false} LessIrreflexive(a: string)
    ensures !Less(a, a)
    decreases |a|
  {
    if |a| > 0 {
      LessIrreflexive(a[1..]);
    }
  }

  lemma {:induction false} LessAsymmetric(a: string, b: string)
    requires Less(a, b)
    ensures !Less(b, a)
    decreases |a|
  {
    if |a| > 0 && a[0] == b[0] {
      LessAsymmetric(a[1..], b[1..]);
    }
  }

  lemma {:induction false} LessTransitive(a: string, b: string, c: string)
    requires Less(a, b) && Less(b, c)
    ensures Less(a, c)
    decreases |a|
  {
    if |a| > 0 && a[0] == b[0] && b[0] == c[0] {
      LessTransitive(a[1..], b[1..], c[1..]);
    }
  }

  /** Two different strings are always ordered one way or the other. */
  lemma {:induction false} LessTotal(a: string, b: string)
    requires a != b
    ensures Less(a, b) || Less(b, a)
    decreases |a|
  {
    if |a| > 0 && |b| > 0 && a[0] == b[0] {
      assert a == [a[0]] + a[1..] && b == [b[0]] + b[1..];
      LessTotal(a[1..], b[1..]);
    }
  }

  /** `!(a <= b)` is `b < a`: the two relations are each other's negation. */
  lemma NotLessEqIsGreater(a: string, b: string)
    ensures !LessEq(a, b) <==> Less(b, a)
  {
    if Less(b, a) {
      LessAsymmetric(b, a);
      LessIrreflexive(a);
    } else if a != b {
      LessTotal(a, b);
    }
  }

  /** The empty string is below every non-empty string. */
  lemma EmptyIsLeast(b: string)
    ensures Less("", b) <==> Truthy(b)
  {
  }

  /** `s.startsWith(p)`. */
  predicate StartsWith(s: string, p: string) {
    |p| <= |s| && s[..|p|] == p
  }

  /** The characters `String.prototype.trim` removes, restricted to ASCII. */
  predicate IsSpace(c: char) {
    c == ' ' || c == '\t' || c == '\n' || c == '\r' || c == '\U{B}' || c == '\U{C}'
  }

  /** Where the text of `s` starts: the first index from `i` on that is not
      white space, or `|s|`. */
  function TextStart(s: string, i: nat := 0): (j: nat)
    requires i <= |s|
    ensures i <= j <= |s|
    ensures forall k :: i <= k < j ==> IsSpace(s[k])
    ensures j == |s| || !IsSpace(s[j])
    decreases |s| - i
  {
    if i < |s| && IsSpace(s[i]) then TextStart(s, i + 1) else i
  }

  /** Where the text of `s` ends: just after the last character before `j`
      and not before `lo` that is not white space, or `lo`. */
  function TextEnd(s: string, lo: nat, j: nat): (e: nat)
    requires lo <= j <= |s|
    ensures lo <= e <= j
    ensures forall k :: e <= k < j ==> IsSpace(s[k])
    ensures e == lo || !IsSpace(s[e - 1])
    decreases j
  {
    if lo < j && IsSpace(s[j - 1]) then TextEnd(s, lo, j - 1) else j
  }

  /** `r` is `s[i..j]` and only white space lies outside that slice. */
  predicate SliceBetweenSpaces(s: string, r: string, i: int, j: int) {
    && 0 <= i <= j <= |s| && r == s[i..j]
    && (forall k :: 0 <= k < i ==> IsSpace(s[k]))
    && (forall k :: j <= k < |s| ==> IsSpace(s[k]))
  }

  /** Neither end of `r` is white space. */
  predicate NoSpaceAtEnds(r: string) {
    r == "" || (!IsSpace(r[0]) && !IsSpace(r[|r| - 1]))
  }

  /** `s.trim()`: the slice of `s` left after dropping leading and trailing
      white space. */
  function Trim(s: string): (r: string)
    ensures exists i, j :: SliceBetweenSpaces(s, r, i, j)
    ensures NoSpaceAtEnds(r)
  {
    var i := TextStart(s);
    var j := TextEnd(s, i, |s|);
    assert SliceBetweenSpaces(s, s[i..j], i, j);
    assert s[i..j] == "" || (s[i..j][0] == s[i] && s[i..j][j - i - 1] == s[j - 1]);
    s[i..j]
  }

  /** `c.toUpperCase()` for one character; only ASCII letters are mapped. */
  function UpperChar(c: char): (r: char)
    ensures 'a' <= c <= 'z' ==> 'A' <= r <= 'Z' && r as int - c as int == 'A' as int - 'a' as int
    ensures !('a' <= c <= 'z') ==> r == c
  {
    if 'a' <= c <= 'z' then (c as int - 'a' as int + 'A' as int) as char else c
  }
}

=== FILE: ui.dfy ===
/** What the screens show besides their own state. */
module Ui {

  /** `Alert.alert(title, body)`. */
  datatype Alert = Alert(title: string, body: string)
}

=== FILE: wrappers.dfy ===
/** Failure-compatible wrappers shared by every module of the model. */
module Wrappers {

  /** A value that may be absent: JavaScript's `null` / `undefined`. */
  datatype Option<+T> = None | Some(value: T) {

    /** The wrapped value, or `default` when absent. */
    function GetOr(default: T): T {
      match this
      case Some(v) => v
      case None => default
    }
  }

  /** A field of a parsed JSON object: not there at all (`undefined`), the
      literal `null`, or a value. The two absences print differently. */
  datatype Field<+T> = Missing | Null | Given(value: T)

  /** The outcome of an operation that may throw or be rejected. */
  datatype Result<+R, +E> = Success(value: R) | Failure(error: E)
}
